=== FILE: README.md ===
# Stream session engines of ring-mqtt, modelled in Dafny

ring-mqtt exposes Ring cameras over MQTT and RTSP. Each camera can stream in
three ways, each run by its own small engine:

- **Live stream.** A `LiveStream` controller asks the Ring cloud for a
  signaling ticket. It then hands the ticket to a `LiveStreamWorker` thread,
  which opens the WebRTC session, starts a transcoder and stops the session
  with a bounded retry loop. The worker comes in two variants. The second one
  keeps the `altVideoData` its transcoder returns and sends it with every
  state message.
- **Event stream.** An `EventStream` replays one recorded event clip through
  a single ffmpeg process.
- **Snapshot stream.** A `SnapshotStream` turns the latest snapshot image into
  video with two pipelined ffmpeg stages. On demand it splices in a "livesnaps"
  stage fed from the live stream's alternate video. Its `stop` ends the RTSP
  stage gracefully, with a SIGKILL fallback.

Every engine is modelled the same way. A small immutable record holds the
state. A pure transition function maps a state and an event to the next state
plus the actions taken: spawn, kill, posted message, `publishStreamState()`.
Process events, timer expiries and the results of collaborators are input
events. Most asynchronous handlers are split at their awaits into atomic
steps. Two handlers that await inside a loop are one step each instead: the
stop-retry loop of the worker, where the handlers that run during its 200 ms
waits are an input, and the 50 ms alternate-video poll of the snapshot
engine's keepalive stage.

| module | file | models |
|---|---|---|
| `Common` | common.dfy | `Option`, the three status words |
| `Text` | text.dfy | the JavaScript string operations the event stream uses: `split`, `toLowerCase`, `replace` with a string pattern, substring search, loose `==` against a number |
| `Args` | args.dfy | predicates over ffmpeg argument lists |
| `Protocol` | protocol.dfy | the messages between the controller and its worker thread |
| `LiveController` | live_controller.dfy | devices/stream/live.js |
| `LiveWorker` | live_worker.dfy | devices/stream/worker.js (variant `Basic`) and devices/stream/live-worker.js (variant `AltVideoCapture`) |
| `LiveSystem` | live_system.dfy | the controller and the basic worker joined by two ordered message queues |
| `EventStream` | event_stream.dfy | devices/stream/event.js |
| `SnapshotStream` | snapshot_stream.dfy | devices/stream/snapshot.js |
| `Shutdown` | shutdown.dfy | the graceful/forced shutdown race at the end of `stop` in devices/stream/snapshot.js |

## Model

| member | source | states |
|---|---|---|
| Common.ParseStatus | devices/stream/live.js:18-31 | a word names a status exactly when it is one of the three status words, and then it names that status |
| LiveController.OnMessage | devices/stream/live.js:16-43 | a state message with a known word sets that status, with a session exactly when the status is active; an unknown word leaves the controller unchanged; every state message publishes exactly once; log messages change nothing and publish nothing |
| LiveController.BeginStart | devices/stream/live.js:46-59 | the session is marked before the ticket is known, the status is untouched, and the only action is the ticket request to the signalsocket endpoint |
| LiveController.FinishStart | devices/stream/live.js:60-77 | with a non-empty ticket the controller posts exactly one start command carrying that ticket and the publish URL, and leaves its own state alone; with no ticket or a failed request it ends failed with no session, publishes once and posts nothing |
| LiveController.Stop | devices/stream/live.js:80-86 | a stop command is posted exactly when a session was tracked; afterwards the controller is inactive with no session, and nothing is published |
| LiveController.PublishIff | devices/stream/live.js:32-76 | the controller publishes exactly on a state message or on a start that got no ticket |
| LiveController.PostIff | devices/stream/live.js:69-83 | the worker is told something exactly on a start with a ticket or a stop while a session is tracked; every start command carries the settled ticket and URL |
| LiveController.ForbiddenIsAnyFailure | devices/stream/live.js:61-67 | an HTTP 403 ends the start exactly like any other ticket failure |
| LiveController.StartWithoutTicket | devices/stream/live.js:46-78 | a whole start without a ticket, from any state, ends failed with no session after a ticket request and one publish |
| LiveController.StopIdempotent | devices/stream/live.js:80-86 | a second stop posts nothing and changes nothing |
| LiveController.LogsChangeNothing | devices/stream/live.js:33-42 | log messages never move the status or the session |
| LiveWorker.Config | devices/stream/worker.js:104-127 | the output list ends with the publish URL and selects the RTSP muxer over TCP; the video is mapped and copied; the two audio tracks are AAC and copy; the input sets a zero analyze duration |
| LiveWorker.VariantsShareCodecs | devices/stream/live-worker.js:111-132 | both variants give the transcoder the same audio and video options and publish to the URL over TCP with the same muxer tail; they differ in the input timing options, and in the output's head: a 0.2 s start offset in live-worker.js, direct I/O in worker.js |
| LiveWorker.InterleaveFrame | devices/stream/worker.js:95-138 | a handler that runs during a wait (call-ended, the settle delay, a failed transcoder) touches only the session and releases at most a pending settle timer or transcoder start; it never calls stop() and never gives a session back; its state messages carry the worker's altVideoData |
| LiveWorker.RoundsFrame | devices/stream/worker.js:149-161 | the retry loop changes nothing but the session and what the interleaved handlers release |
| LiveWorker.RoundsCounts | devices/stream/worker.js:149-161 | the retry loop waits at most its remaining budget and calls stop() at most once per wait |
| LiveWorker.RoundsStopActions | devices/stream/worker.js:149-161 | the retry loop emits exactly one stop action per stop() call; the handlers that run during its waits emit none |
| LiveWorker.RoundsExit | devices/stream/worker.js:149-161 | a loop that ends holding the session without an exception has used its whole budget; one that finds the session gone ends with an error line and an inactive state message |
| LiveWorker.StopRoundsBounds | devices/stream/worker.js:149-161 | the four facts above together |
| LiveWorker.StopLiveStream | devices/stream/worker.js:141-164 | a stop while another runs is absorbed; otherwise there are at most 10 waits and 11 stop() calls, one stop action per call; nothing changes but the session, the stopping flag and what the interleaved handlers release; the flag stays set exactly when stop() threw; with the session still held and nothing thrown, the full 10 waits and 11 calls were made; with the session gone and nothing thrown, the posts end with an error line and an inactive state message |
| LiveWorker.ClearedAtWait | devices/stream/worker.js:149-161 | when the first handler to run clears the session during wait k, the loop retries until then, keeps the handler's effects, and ends with the handler's posts, an error line and an inactive state message |
| LiveWorker.StopClearedDuringWait | devices/stream/worker.js:141-164 | a stop whose session a handler clears during wait k (with no earlier handler and no throw) makes k + 1 waits and k + 1 stop() calls, ends with the flag cleared, no session and the handler's effects, and its posts end with the handler's posts, an error line and an inactive state message |
| LiveWorker.RunRetryLoop | devices/stream/worker.js:149-161 | the loop with a decreasing counter, run on a held session after the first stop() call, produces exactly the outcome of the retry rounds |
| LiveWorker.RunStopLiveStream | devices/stream/live-worker.js:138-161 | the loop with a decreasing counter computes exactly the stop outcome above, with no more stop() calls than waits plus one |
| LiveWorker.StoppingGuardIsDead | devices/stream/worker.js:37-48 | in every worker reachable from a fresh one the flag the start guard reads is unset, so a start while a session is held reports active rather than failed |
| LiveWorker.StepKeepsInvariant | devices/stream/worker.js:5-13 | no step assigns the flag the start guard reads, changes the variant, or gives the basic worker alternate video |
| LiveWorker.RunKeepsInvariant | devices/stream/worker.js:5-13 | the same holds after any sequence of events |
| LiveWorker.HandleStart | devices/stream/worker.js:37-51 | a start while the stopping flag is set or a session is held changes nothing and posts an error line then a state message (failed or active) |
| LiveWorker.StartWhileHeldOpensNothing | devices/stream/worker.js:44-48 | a start while a session is held opens no session and leaves the worker unchanged |
| LiveWorker.StartLiveStream | devices/stream/worker.js:59-77 | a start with a payload whose session opens holds the session, subscribes to connection state, starts one transcoder with the variant's config, and subscribes to call-ended up front only in live-worker.js; a missing payload or a failing constructor posts failed and drops the session; altVideoData is untouched |
| LiveWorker.OnTranscodingSettled | devices/stream/worker.js:72-76 | a failed transcoder posts an error and failed and drops the session; a started one records its alternate video in live-worker.js; in worker.js a started one subscribes to call-ended while the session is held, and posts a log line, an error and failed when the session was cleared meanwhile; only live-worker.js's start can change altVideoData |
| LiveWorker.OnConnectionState | devices/stream/worker.js:79-99 | connected posts active; failed posts failed, stops a held session and starts the settle delay; every other state, or no subscription, does nothing |
| LiveWorker.OnCallEnded | devices/stream/worker.js:133-138 | a subscribed call-ended posts inactive and drops the session |
| LiveWorker.OnSettleElapsed | devices/stream/worker.js:95-99 | the settle delay after a failed connection drops the session |
| LiveWorker.OnCommand | devices/stream/worker.js:15-35 | a stop without a session does nothing; an unknown command posts only an error line |
| LiveWorker.StopClearsStopping | devices/stream/worker.js:141-164 | a stop that ends normally clears the stopping flag; one whose stop() throws leaves it set and ends with an error line and failed |
| LiveWorker.StuckSessionStaysHeld | devices/stream/worker.js:145-163 | a session that never lets go is stopped 11 times over 10 waits and is still held afterwards, with the stopping flag cleared |
| LiveWorker.NeverClearedNeverThrows | devices/stream/worker.js:149-161 | the retry loop on a session nobody clears and whose stop() never throws ends with the session held |
| LiveWorker.StopWithoutSession | devices/stream/worker.js:53-57 | a stop command without a session is a no-op |
| LiveWorker.FailureThenSettleAcceptsStart | devices/stream/worker.js:86-99 | a failed connection posts failed, the settle delay drops the session, and the next start opens a new one |
| LiveWorker.HandlersSurviveTranscoderFailure | devices/stream/live-worker.js:72-79 | in live-worker.js a transcoder failure leaves both subscriptions in place, so a later call-ended still posts inactive; worker.js has not yet subscribed to call-ended then |
| LiveWorker.AltVideoChangesOnlyOnTranscoderStart | devices/stream/live-worker.js:134 | altVideoData changes only when the transcoder of live-worker.js starts |
| LiveWorker.FailedStartKeepsAltVideo | devices/stream/live-worker.js:75-79 | a failed start or transcoder keeps the last altVideoData |
| LiveWorker.StateMessagesCarryAltVideo | devices/stream/live-worker.js:172-174 | every state message of live-worker.js carries the current altVideoData; those of worker.js carry no such field |
| LiveWorker.StopPostsCarryAltVideo | devices/stream/live-worker.js:138-161 | the state messages the stop path posts carry the same field |
| LiveWorker.RoundsPostsCarryAltVideo | devices/stream/live-worker.js:146-158 | so do those of every retry round |
| LiveSystem.FeedMirrorsLastStatus | devices/stream/live.js:16-43 | after handling a batch of worker messages, the controller's status is the one the last recognised state message names, with a session exactly when it is active; with no recognised state message the controller is unchanged |
| LiveSystem.StartToActive | devices/stream/worker.js:59-85 | a start with a ticket puts one start command on the worker's queue; once the session opens, the transcoder starts and the connection comes up, the worker has queued three log lines, active and a log line, and handling them leaves the controller active with a session |
| LiveSystem.FailedConnectionSwallowsStop | devices/stream/live.js:80-86 | after a failed connection is mirrored, the controller has no session, so a stop is not forwarded although the worker still holds the session until the settle delay ends |
| Text.Split | devices/stream/event.js:12 | splitting yields at least one part and no part contains the separator |
| Text.JoinSplit | devices/stream/event.js:12 | joining the parts of a split with the separator gives back the string |
| Text.SplitJoin | devices/stream/event.js:12 | splitting a join of separator-free parts gives back the parts |
| Text.ToLower | devices/stream/event.js:13 | the definition of lower-casing: the length is kept, each upper-case ASCII letter becomes its lower-case partner and every other character is kept; its consequences are stated by `Text.ToLowerSpec` |
| Text.ToLowerSpec | devices/stream/event.js:13 | after lower-casing no upper-case letter remains, every other character is unchanged, and lower-casing again changes nothing |
| Text.ReplaceFirst | devices/stream/event.js:13 | replacing a character changes only its first occurrence, and nothing when it does not occur |
| Text.ContainsIsSubstring | devices/stream/event.js:16 | the substring test holds exactly when the pattern occurs at some position |
| Text.DecimalRoundTrip | devices/stream/event.js:17 | a number written in decimal reads back as the same number |
| EventStream.EventTypeSpec | devices/stream/event.js:12-13 | the event type has the first word's length, no space and no upper-case letter; it is the lower-cased first word with exactly its first '-' replaced by '_', no '-' before that position, and the lower-cased word itself when it has no '-' |
| EventStream.SelectionWords | devices/stream/event.js:12-14 | for a selection "type number" the first word is the type and the event number is the number |
| EventStream.OrdinalOfNumber | devices/stream/event.js:17 | the ordinal prefix is empty for 1, "2nd " for 2, "3rd " for 3 and the number followed by "th " otherwise |
| EventStream.ProfilesDifferOnlyInVideo | devices/stream/event.js:27-61 | the two profiles share the real-time input, the three maps, the audio codecs and the RTSP output, and differ only in their video options; both read the recording and publish to the URL over TCP |
| EventStream.VideoCodecs | devices/stream/event.js:35-54 | the re-encode profile selects libx264 and the other copies the video |
| EventStream.ProfileArgs | devices/stream/event.js:27-62 | a transcoded recording or an HEVC camera selects libx264, otherwise the video is copied; either way the recording is the input and the URL the RTSP output |
| EventStream.OnStart | devices/stream/event.js:11-82 | an unavailable recording or a throwing spawn ends failed with no session and one publish; otherwise the one profile process is spawned and the session held |
| EventStream.OnStop | devices/stream/event.js:84-90 | stop ends inactive with no session, kills exactly a held process, and never publishes |
| EventStream.SpawnIff | devices/stream/event.js:16-62 | a process is spawned exactly on a start with a playable recording whose spawn does not throw |
| EventStream.PublishIff | devices/stream/event.js:16-81 | every event publishes except a stop and a start that spawned |
| EventStream.ActiveOnlyOnSpawn | devices/stream/event.js:64-68 | only the process's spawn event makes the engine active |
| EventStream.UnavailableSpawnsNothing | devices/stream/event.js:16-22 | a "Recording Not Found" or "Transcoding in Progress" URL fails the start without a process, whatever the engine held |
| EventStream.StopIdempotent | devices/stream/event.js:84-90 | a second stop changes nothing and kills nothing |
| EventStream.StartIgnoresHeldProcess | devices/stream/event.js:26-29 | a start with a process already held spawns another without killing the first |
| Shutdown.DrainStep | devices/stream/snapshot.js:223-240 | 'finish' kills once, even after the timer fired; the timer sends SIGKILL only while the race is unsettled; each step sends at most one signal |
| Shutdown.NoLateSigKill | devices/stream/snapshot.js:225-237 | once 'finish' has come no SIGKILL follows |
| Shutdown.NoSecondSigKill | devices/stream/snapshot.js:232-239 | once the timer has fired no second SIGKILL follows |
| Shutdown.RaceOutcome | devices/stream/snapshot.js:223-240 | the stage gets SIGKILL exactly when the timer fires before 'finish', and some kill as soon as either fires |
| SnapshotStream.RtspStageFormat | devices/stream/snapshot.js:47-58 | the RTSP stage reads MPEG-TS from its input, copies the video and publishes to the URL over TCP |
| SnapshotStream.EncoderStageFormat | devices/stream/snapshot.js:69-86 | the encoder reads images from its input, scales, encodes with libx264 and writes MPEG-TS to its output |
| SnapshotStream.LivesnapsStageFormat | devices/stream/snapshot.js:130-152 | the livesnaps stage reads an SDP description from its input and writes the same scaled libx264 MPEG-TS as the encoder |
| SnapshotStream.KeepaliveStageFormat | devices/stream/snapshot.js:112-118 | the keepalive stage reads the camera's live path on the local RTSP server and discards it |
| SnapshotStream.AltVideoPoll | devices/stream/snapshot.js:125-129 | polling every 50 ms finds the alternate video exactly when it appears by the 5000 ms deadline, never sleeps past the deadline, and stops at the first poll that can see it |
| SnapshotStream.WaitForAltVideo | devices/stream/snapshot.js:123-129 | the wait finds the alternate video exactly when it appears within 5000 ms, after at most 100 sleeps and within 50 ms of its appearance |
| SnapshotStream.OnStart | devices/stream/snapshot.js:29-58 | without an image or when the spawn throws the stream fails and publishes; otherwise the RTSP stage is spawned, its 'spawn' event is pending and one more start promise is unsettled, and an RTSP handle already held is overwritten and counted as orphaned |
| SnapshotStream.OnStop | devices/stream/snapshot.js:212-222 | stop always clears the timer its handle refers to, goes inactive and publishes; timers no handle refers to keep running; it ends the RTSP stage's input exactly when that handle was held, releases it, and neither kills nor spawns |
| SnapshotStream.OnTick | devices/stream/snapshot.js:197-210 | while any image timer runs, a tick writes the image when active with an encoder held and the write succeeds, and stops the stream otherwise; with no timer running nothing happens |
| SnapshotStream.OnEncoderSpawned | devices/stream/snapshot.js:88-94 | the encoder's spawn starts a new timer whose handle replaces the old one, leaving a running old timer behind, and turns the stream active with one publish |
| SnapshotStream.OnStartLivesnaps | devices/stream/snapshot.js:105-118 | a start while a run is marked active does nothing; otherwise the run is marked and the keepalive stage spawned |
| SnapshotStream.KillLivesnapsStages | devices/stream/snapshot.js:182-188 | the end of a run kills exactly the held livesnaps and keepalive stages and resets no flag |
| SnapshotStream.OnKeepaliveSpawned | devices/stream/snapshot.js:120-130 | the livesnaps stage is spawned exactly when the alternate video appears within the deadline; otherwise the run is abandoned with its mark left set |
| SnapshotStream.NoImageSpawnsNothing | devices/stream/snapshot.js:30-35 | without an image the stream fails and publishes and nothing is spawned |
| SnapshotStream.ActiveOnlyOnEncoderSpawn | devices/stream/snapshot.js:88-94 | in one step, only the 'spawn' event of an encoder that was spawned makes the stream active |
| SnapshotStream.EncoderSpawnIff | devices/stream/snapshot.js:68-69 | the encoder is spawned exactly when a spawned RTSP stage reports its 'spawn' event |
| SnapshotStream.StepAccountsStages | devices/stream/snapshot.js:46-103 | every step keeps the account: an active stream holds its encoder, a held or pending encoder was spawned, a pending RTSP stage was spawned, and every encoder spawn follows an RTSP spawn |
| SnapshotStream.RunAccountsStages | devices/stream/snapshot.js:46-103 | the same account holds along any sequence of events |
| SnapshotStream.ActiveNeedsBothStages | devices/stream/snapshot.js:68-94 | along every run from rest, a stream that is active holds its encoder, and an RTSP stage and then an encoder were spawned before |
| SnapshotStream.RtspErrorFailsPendingStart | devices/stream/snapshot.js:38-43 | an RTSP error rejects its own start's promise: while that start is unsettled the stream fails and publishes once, even when other starts have settled since; an error for a settled start does nothing |
| SnapshotStream.UnsettledStep | devices/stream/snapshot.js:66-101 | a start that spawns its RTSP stage opens one promise, an RTSP error or an encoder spawn settles its own start's promise if still unsettled, and nothing else changes the count |
| SnapshotStream.RunBoundsUnsettled | devices/stream/snapshot.js:66-101 | along any sequence of events no more starts are unsettled than were opened |
| SnapshotStream.OverlappingStartsFailSeparately | devices/stream/snapshot.js:38-43 | after two overlapping starts, the first start's encoder spawn turns the stream active, and the second start's RTSP error still fails it and publishes |
| SnapshotStream.WriteIff | devices/stream/snapshot.js:198-209 | an image is written exactly on a tick of a running timer while active with an encoder held and a write that succeeds; any other tick of a running timer stops the stream |
| SnapshotStream.StopTwice | devices/stream/snapshot.js:212-221 | a second stop still publishes but touches no process |
| SnapshotStream.RtspReleaseIff | devices/stream/snapshot.js:218-224 | the RTSP handle is released exactly when its input is ended; a step that orphans an RTSP stage (a start at line 47) keeps a handle and neither ends nor kills that stage |
| SnapshotStream.EncoderNeverKilled | devices/stream/snapshot.js:212-241 | no step kills the encoder or drops its handle |
| SnapshotStream.RunNeverKillsEncoder | devices/stream/snapshot.js:212-241 | the same holds along any sequence of events |
| SnapshotStream.LivesnapsReentryIgnored | devices/stream/snapshot.js:106 | a livesnaps start while one is marked active does nothing |
| SnapshotStream.OnLivesnapsClosed | devices/stream/snapshot.js:165-171 | the close refreshes the snapshot and unpipes the livesnaps stage; with both the encoder's and the RTSP stage's handles held it pipes the encoder back and resets the livesnaps flags, otherwise it stops there and the flags stay set |
| SnapshotStream.LivesnapsActiveClearedOnlyOnClose | devices/stream/snapshot.js:165-171 | the livesnaps mark is cleared only by the livesnaps stage's close, and a close clears it exactly when both handles are held |
| SnapshotStream.CloseAfterStopKeepsMark | devices/stream/snapshot.js:165-171 | a livesnaps stage that closes after a stop (which drops the RTSP handle, line 220) leaves its mark set, so a later livesnaps start is ignored |
| SnapshotStream.AbandonedRunBlocksLivesnaps | devices/stream/snapshot.js:178-188 | a run abandoned for lack of alternate video keeps its mark, so a later livesnaps start is ignored, even after the keepalive stage closed |
| SnapshotStream.SpliceAndRevert | devices/stream/snapshot.js:160-171 | the livesnaps stage's first data replaces the encoder as the RTSP stage's feeder; its close puts the encoder back when both handles are held and otherwise leaves the RTSP stage with no feeder |
| SnapshotStream.RunKeepsFeeders | devices/stream/snapshot.js:96-98 | only the encoder and the livesnaps stage ever feed the RTSP stage, along any sequence of events |
| SnapshotStream.LeakedTimersOnlyGrow | devices/stream/snapshot.js:197-214 | no step stops a timer no handle refers to, and an encoder spawn while a timer runs leaves one more such timer |
| SnapshotStream.RunKeepsLeakedTimers | devices/stream/snapshot.js:197-214 | along any sequence of events the leaked timers never go away |
| SnapshotStream.RestartLeaksTimer | devices/stream/snapshot.js:88-94 | a second encoder spawn while a timer runs, then a stop, then a tick: the old timer is still running and its tick stops the stream again and publishes again |
| SnapshotStream.LeakedHandlesOnlyGrow | devices/stream/snapshot.js:46-69 | a start while the RTSP handle is held orphans exactly one RTSP stage, an RTSP spawn while the encoder handle is held orphans exactly one encoder, and no other step changes either count |
| SnapshotStream.RunKeepsLeakedHandles | devices/stream/snapshot.js:46-69 | along any sequence of events the orphaned stages never go away |
| SnapshotStream.RestartOrphansEncoder | devices/stream/snapshot.js:46-69 | a stop (which never touches the encoder), a start and the new RTSP stage's spawn orphan the encoder that was held, and no RTSP stage |
| SnapshotStream.StopDrainsRtsp | devices/stream/snapshot.js:212-241 | a stop that finds the RTSP stage gets SIGKILL to it exactly when the 2000 ms timer fires before 'finish', and signals it as soon as either fires; a later stop signals nothing |
| SnapshotStream.HappyStart | devices/stream/snapshot.js:46-103 | a start from rest spawns the RTSP stage, then the encoder, and turns active with the timer running once the encoder is up |

## Where the code and its design disagree

The model follows the code in each of these cases.

- Both workers guard `start` on `isStreamStopping`, but only `stopping` is ever
  assigned (devices/stream/worker.js:10,38,144). The "failed while stopping"
  branch is therefore dead. A start during a stop meets the held-session
  branch instead (`LiveWorker.StoppingGuardIsDead`).
- When the retry loop runs out of budget, the session stays held
  (`LiveWorker.StuckSessionStaysHeld`).
- The livesnaps mark is reset only by the livesnaps stage's close. When no
  alternate video arrives, the run is abandoned with the mark still set, and
  every later livesnaps start is ignored
  (`SnapshotStream.AbandonedRunBlocksLivesnaps`).
- The snapshot engine's `stop` publishes every time, also when it finds
  nothing to stop. It never kills the encoder stage
  (`SnapshotStream.StopTwice`, `SnapshotStream.RunNeverKillsEncoder`).
- After the timer won the shutdown race, the 'finish' listener still kills
  (`Shutdown.DrainStep`).
- Every encoder spawn starts a new 50 ms timer and overwrites the handle of
  the previous one, and `stop` clears only the timer the handle refers to
  (devices/stream/snapshot.js:89,198,213). After a second start the first timer
  keeps running. Each of its ticks finds the stream inactive and stops it
  again, publishing every 50 ms (`SnapshotStream.RestartLeaksTimer`).
- The livesnaps stage's close handler pipes the encoder back into the RTSP
  stage before it resets the livesnaps flags
  (devices/stream/snapshot.js:169-170). When either handle is missing, as
  after a stop, that pipe throws and the async handler's promise rejects. The
  flags are never reset, and every later livesnaps start is ignored
  (`SnapshotStream.OnLivesnapsClosed`, `SnapshotStream.CloseAfterStopKeepsMark`).
  This takes the rejection to be ignored; see the line on rejected async
  handlers under "## Left out".
- A start overwrites the RTSP handle, and the RTSP stage's spawn overwrites
  the encoder handle, without ending or killing the stage held before
  (devices/stream/snapshot.js:47,69). Since `stop` never touches the encoder,
  every restart orphans one encoder process (`SnapshotStream.RestartOrphansEncoder`).
- The controller in live.js loads worker.js, which has no `altVideoData`.
  live.js itself has no `altVideoData` and no `unbindAltVideoPorts`.
  snapshot.js reads both from the live stream anyway. The model therefore
  takes the time the alternate video appears as an input, and
  `UnbindAltVideoPorts` as an opaque action. With the controller as written,
  the alternate video never appears, so every livesnaps run is abandoned.

## Left out

- Log and debug text. Log lines are modelled as `LogInfo`/`LogError` messages without their text.
- lib/webrtc-connection.js, lib/streaming-session.js and lib/utils.js are not part of this model. Their results are inputs: whether the session objects can be built, how the transcoder settles, connection states, call-ended, and how `stop()` behaves during the retry loop.
- The REST ticket request, the `worker_threads` transport and ffmpeg itself. Their outcomes are inputs.
- Wall-clock time. Timers and sleeps are discrete events. The 200 ms retry wait and the 2000 ms settle delay are one event each.
- The livesnaps window length (5000 ms plus the requested duration). The window's end is one input event.
- Interleaving inside a handler. A handler up to its next await is one atomic step, except the two loops named below, which are one step each.
- LiveWorker.StopLiveStream: the whole retry loop, with its up to ten 200 ms waits, is one step. Other handlers act during the waits only through the `during` input: at most one per wait, and only call-ended, the settle delay or a transcoder failure. A connection-state change or a second command during a wait is not modelled.
- SnapshotStream.OnKeepaliveSpawned: the 50 ms poll loop for the alternate video is one step, so no other handler of the engine runs during its sleeps.
- SnapshotStream.Step: 'spawn' events are tied to an earlier spawn only for the RTSP and encoder stages. 'error' and 'close' events, and the keepalive and livesnaps stages' events, are accepted in any state. Events carry no process identity. Whether an RTSP error or an encoder spawn belongs to a start whose promise is still unsettled is an input of the event, checked only against the count of unsettled starts.
- EventStream.Step: 'spawn' and 'close' events are accepted in any state. Events carry no process identity, so a 'close' from a process whose handle a second start overwrote also clears the held session.
- Node stream mechanics: back-pressure, and piping the same stream twice. `feeders` is a set, so a repeated pipe adds nothing.
- LiveWorker.OnConnectionState and SnapshotStream.OnLivesnapsClosed: a rejected async handler is assumed to be ignored, as a process-level handler outside these files would do. This concerns the 'failed' subscriber with no session held (devices/stream/worker.js:96, devices/stream/live-worker.js:92) and the livesnaps close (devices/stream/snapshot.js:169). Nothing in the modelled files handles these rejections, and live.js registers no 'error' listener on its worker. Under Node's default treatment of unhandled rejections they would end the worker thread or the process; that outcome is not modelled.
- Dereferencing a cleared handle in the synchronous first-data listeners (devices/stream/snapshot.js:97,161-162). There the throw is an uncaught exception of the process, outside the engine's states.
- The `image` flag that the livesnaps close handler also resets. No code that is modelled reads it.
- devices/kidde-smoke-co-alarm.js is not part of this model. It maps device fields to MQTT entities and has no session logic.
- Text.ToLower: lower-cases ASCII letters only, because JavaScript's Unicode case mapping has no counterpart here.
- EventStream.OrdinalPrefix: compares the event number with 1, 2 and 3 only when the token is all decimal digits, because the rest of JavaScript's string-to-number conversion is not modelled. Here tokens such as "2.0" get the "th " suffix, whereas JavaScript treats them as 2.
- SnapshotStream.WaitForAltVideo: assumes each sleep lasts exactly 50 ms. A real sleep can overrun.

=== FILE: args.dfy ===
/** Predicates over the argument lists the engines hand to the transcoder. */
module Args {

  /** `flag` is immediately followed by `value` somewhere in `args`. */
  predicate HasOption(args: seq<string>, flag: string, value: string)
  {
    exists i :: 0 <= i < |args| - 1 && args[i] == flag && args[i + 1] == value
  }

  /** The list publishes to `url`: it names the RTSP muxer and the TCP
      transport, and ends with the publish URL. */
  predicate PublishesTo(args: seq<string>, url: string)
  {
    && |args| > 0
    && args[|args| - 1] == url
    && HasOption(args, "-f", "rtsp")
    && HasOption(args, "-rtsp_transport", "tcp")
  }
}

=== FILE: common.dfy ===
/** Definitions shared by every stream engine. */
module Common {

  datatype Option<+T> = None | Some(value: T)

  /** The status an engine reports through publishStreamState(). */
  datatype Status = Inactive | Active | Failed

  /** The word a worker puts in the `data` field of a `state` message for each status. */
  function StatusWord(s: Status): string
  {
    match s
    case Inactive => "inactive"
    case Active => "active"
    case Failed => "failed"
  }

  /** The status a `state` word names, if it names one. */
  function ParseStatus(word: string): (r: Option<Status>)
    ensures r.Some? ==> StatusWord(r.value) == word
    ensures r.None? ==> forall s: Status :: StatusWord(s) != word
  {
    if word == "inactive" then Some(Inactive)
    else if word == "active" then Some(Active)
    else if word == "failed" then Some(Failed)
    else None
  }
}

=== FILE: event_stream.dfy ===
/** The EventStream engine: it replays one recorded event clip to the RTSP
    server through a single transcoder process. */
module EventStream {
  import opened Common
  import opened Text
  import opened Args

  datatype Engine = Engine(status: Status, session: bool)  // session: a process handle is held

  const Init := Engine(Inactive, false)

  /** The camera's event selection: `state` such as "Motion 2", the
      recording's URL, and whether the cloud transcoded the recording. */
  datatype EventSelect = EventSelect(state: string, recordingUrl: string, transcoded: bool)

  datatype Action =
    | Spawn(args: seq<string>)  // the transcoder process was created
    | Kill                      // session.kill()
    | Publish                   // publishStreamState()

  datatype Event =
    | Start(select: EventSelect, hevcEnabled: bool, rtspPublishUrl: string, spawnThrows: bool)
    | Spawned   // the process's 'spawn' event
    | Closed    // the process's 'close' event
    | Stop

  // ---------------------------------------------------------------------
  // Describing the selected event

  /** The event type: the first space-separated word, lower-cased, with its
      first '-' turned into '_'. */
  function EventType(state: string): string
  {
    ReplaceFirst(ToLower(Split(state, ' ')[0]), '-', '_')
  }

  /** The event number: the second space-separated word, if there is one. */
  function EventNumber(state: string): Option<string>
  {
    var words := Split(state, ' ');
    if |words| > 1 then Some(words[1]) else None
  }

  /** The ordinal put before "most recent": nothing for the first event,
      "2nd " and "3rd " for the next two, and the number followed by "th "
      otherwise. A missing number prints as JavaScript prints undefined. */
  function OrdinalPrefix(number: Option<string>): string
  {
    var value := if number.Some? then DecimalValue(number.value) else None;
    if value == Some(1) then ""
    else if value == Some(2) then "2nd "
    else if value == Some(3) then "3rd "
    else (if number.Some? then number.value else "undefined") + "th "
  }

  /** The ordinal of a number written in decimal. */
  lemma OrdinalOfNumber(n: nat)
    ensures OrdinalPrefix(Some(NatToString(n))) ==
      if n == 1 then "" else if n == 2 then "2nd " else if n == 3 then "3rd "
      else NatToString(n) + "th "
  {
    DecimalRoundTrip(n);
  }

  /** The event type is the first word lower-cased with only its first '-'
      changed to '_': same length, no space, no upper-case ASCII letter, and
      a word without '-' comes through lower-cased and otherwise unchanged. */
  lemma EventTypeSpec(state: string)
    ensures var word := Split(state, ' ')[0];
      && |EventType(state)| == |word|
      && ' ' !in EventType(state)
      && (forall i :: 0 <= i < |word| ==> !('A' <= EventType(state)[i] <= 'Z'))
      && (forall i :: 0 <= i < |word| ==> EventType(state)[i] == ToLower(word)[i] || EventType(state)[i] == '_')
    ensures var lower := ToLower(Split(state, ' ')[0]);
      && ('-' !in lower ==> EventType(state) == lower)
      && ('-' in lower ==>
            && EventType(state) == lower[..IndexOf(lower, '-')] + "_" + lower[IndexOf(lower, '-') + 1..]
            && '-' !in EventType(state)[..IndexOf(lower, '-')])
  {
    var word := Split(state, ' ')[0];
    var lower := ToLower(word);
    var t := EventType(state);
    if '-' in lower {
      var k := IndexOf(lower, '-');
      assert t == lower[..k] + "_" + lower[k + 1..];
      assert t[..k] == lower[..k];
      assert |t| == |lower|;
      forall i | 0 <= i < |t|
        ensures t[i] == lower[i] || t[i] == '_'
      {
        if i < k { assert t[i] == lower[..k][i]; }
        else if i > k { assert t[i] == lower[k + 1..][i - k - 1]; }
      }
    }
    forall i | 0 <= i < |t|
      ensures t[i] != ' ' && !('A' <= t[i] <= 'Z')
    {
      assert word[i] != ' ';
    }
  }

  /** The selection word by word: type first, number second. */
  lemma SelectionWords(kind: string, number: string)
    requires ' ' !in kind && ' ' !in number
    ensures Split(kind + " " + number, ' ')[0] == kind
    ensures EventNumber(kind + " " + number) == Some(number)
  {
    var parts := [kind, number];
    assert Join(parts, ' ') == kind + " " + number by {
      assert Join(parts[1..], ' ') == number;
    }
    SplitJoin(parts, ' ');
  }

  // ---------------------------------------------------------------------
  // Availability and argument profiles

  /** The URL reports that no playable recording exists yet. */
  predicate RecordingUnavailable(recordingUrl: string)
  {
    Contains(recordingUrl, "Recording Not Found") || Contains(recordingUrl, "Transcoding in Progress")
  }

  /** The arguments for a recording that must be re-encoded to H.264. */
  function TranscodeArgs(recordingUrl: string, url: string): seq<string>
  {
    ["-re",
     "-i", recordingUrl,
     "-map", "0:v",
     "-map", "0:a",
     "-map", "0:a",
     "-c:v", "libx264",
     "-g", "20",
     "-keyint_min", "10",
     "-crf", "23",
     "-preset", "ultrafast",
     "-c:a:0", "copy",
     "-c:a:1", "libopus",
     "-flags", "+global_header",
     "-rtsp_transport", "tcp",
     "-f", "rtsp",
     url]
  }

  /** The arguments for a recording whose video can be copied. */
  function CopyArgs(recordingUrl: string, url: string): seq<string>
  {
    ["-re",
     "-i", recordingUrl,
     "-map", "0:v",
     "-map", "0:a",
     "-map", "0:a",
     "-c:v", "copy",
     "-c:a:0", "copy",
     "-c:a:1", "libopus",
     "-flags", "+global_header",
     "-rtsp_transport", "tcp",
     "-f", "rtsp",
     url]
  }

  /** The common head of both profiles: real-time input and the three maps. */
  function Head(recordingUrl: string): seq<string>
  {
    ["-re", "-i", recordingUrl, "-map", "0:v", "-map", "0:a", "-map", "0:a"]
  }

  /** The common tail of both profiles: the audio codecs and the RTSP output. */
  function Tail(url: string): seq<string>
  {
    ["-c:a:0", "copy", "-c:a:1", "libopus", "-flags", "+global_header",
     "-rtsp_transport", "tcp", "-f", "rtsp", url]
  }

  /** The two profiles share head and tail and differ only in how they treat
      the video, and both publish over TCP to the given URL. */
  lemma ProfilesDifferOnlyInVideo(recordingUrl: string, url: string)
    ensures TranscodeArgs(recordingUrl, url) ==
      Head(recordingUrl) + ["-c:v", "libx264", "-g", "20", "-keyint_min", "10",
                            "-crf", "23", "-preset", "ultrafast"] + Tail(url)
    ensures CopyArgs(recordingUrl, url) == Head(recordingUrl) + ["-c:v", "copy"] + Tail(url)
    ensures PublishesTo(TranscodeArgs(recordingUrl, url), url)
    ensures PublishesTo(CopyArgs(recordingUrl, url), url)
    ensures HasOption(TranscodeArgs(recordingUrl, url), "-i", recordingUrl)
    ensures HasOption(CopyArgs(recordingUrl, url), "-i", recordingUrl)
  {
    TranscodeArgsSplit(recordingUrl, url);
    CopyArgsSplit(recordingUrl, url);
    HeadAndTailFix(recordingUrl, url, ["-c:v", "libx264", "-g", "20", "-keyint_min", "10",
                                       "-crf", "23", "-preset", "ultrafast"]);
    HeadAndTailFix(recordingUrl, url, ["-c:v", "copy"]);
  }

  lemma TranscodeArgsSplit(recordingUrl: string, url: string)
    ensures TranscodeArgs(recordingUrl, url) ==
      Head(recordingUrl) + ["-c:v", "libx264", "-g", "20", "-keyint_min", "10",
                            "-crf", "23", "-preset", "ultrafast"] + Tail(url)
  {
  }

  lemma CopyArgsSplit(recordingUrl: string, url: string)
    ensures CopyArgs(recordingUrl, url) == Head(recordingUrl) + ["-c:v", "copy"] + Tail(url)
  {
  }

  /** Whatever video options sit between them, the head names the input and
      the tail the publish target. */
  lemma HeadAndTailFix(recordingUrl: string, url: string, video: seq<string>)
    ensures HasOption(Head(recordingUrl) + video + Tail(url), "-i", recordingUrl)
    ensures PublishesTo(Head(recordingUrl) + video + Tail(url), url)
  {
    var a := Head(recordingUrl) + video + Tail(url);
    var n := |a|;
    assert a[1] == "-i" && a[2] == recordingUrl;
    assert a[n - 5] == "-rtsp_transport" && a[n - 4] == "tcp";
    assert a[n - 3] == "-f" && a[n - 2] == "rtsp";
  }

  /** Where each profile names its video codec. */
  lemma VideoCodecs(recordingUrl: string, url: string)
    ensures HasOption(TranscodeArgs(recordingUrl, url), "-c:v", "libx264")
    ensures HasOption(CopyArgs(recordingUrl, url), "-c:v", "copy")
  {
    var t := TranscodeArgs(recordingUrl, url);
    var c := CopyArgs(recordingUrl, url);
    assert t[9] == "-c:v" && t[10] == "libx264";
    assert c[9] == "-c:v" && c[10] == "copy";
  }

  /** The profile for a recording: re-encode when the cloud transcoded it or
      the camera records HEVC, copy otherwise. */
  function ProfileArgs(select: EventSelect, hevcEnabled: bool, url: string): (args: seq<string>)
    ensures HasOption(args, "-c:v", if select.transcoded || hevcEnabled then "libx264" else "copy")
    ensures HasOption(args, "-i", select.recordingUrl)
    ensures PublishesTo(args, url)
  {
    ProfilesDifferOnlyInVideo(select.recordingUrl, url);
    VideoCodecs(select.recordingUrl, url);
    var t := TranscodeArgs(select.recordingUrl, url);
    var c := CopyArgs(select.recordingUrl, url);
    if select.transcoded || hevcEnabled then t else c
  }

  // ---------------------------------------------------------------------
  // Transitions

  /** `start`: refuses an unavailable recording without a process, otherwise
      spawns the transcoder; a synchronous spawn exception fails the start. */
  function OnStart(s: Engine, select: EventSelect, hevcEnabled: bool, url: string, spawnThrows: bool): (r: (Engine, seq<Action>))
    ensures RecordingUnavailable(select.recordingUrl) || spawnThrows ==>
      r == (Engine(Failed, false), [Publish])
    ensures !RecordingUnavailable(select.recordingUrl) && !spawnThrows ==>
      r == (s.(session := true), [Spawn(ProfileArgs(select, hevcEnabled, url))])
  {
    if RecordingUnavailable(select.recordingUrl) then
      (s.(status := Failed, session := false), [Publish])
    else if spawnThrows then
      (s.(status := Failed, session := false), [Publish])
    else
      var args := if select.transcoded || hevcEnabled then TranscodeArgs(select.recordingUrl, url)
                  else CopyArgs(select.recordingUrl, url);
      (s.(session := true), [Spawn(args)])
  }

  /** `stop`: kills only a held process; never publishes. */
  function OnStop(s: Engine): (r: (Engine, seq<Action>))
    ensures r.0 == Engine(Inactive, false)
    ensures r.1 == if s.session then [Kill] else []
  {
    if s.session then (Engine(Inactive, false), [Kill])
    else (s.(status := Inactive), [])
  }

  function Step(s: Engine, e: Event): (Engine, seq<Action>)
  {
    match e
    case Start(select, hevc, url, throws) => OnStart(s, select, hevc, url, throws)
    case Spawned => (s.(status := Active), [Publish])
    case Closed => (s.(status := Inactive, session := false), [Publish])
    case Stop => OnStop(s)
  }

  // ---------------------------------------------------------------------
  // Properties

  /** A process is spawned exactly when a start finds a playable recording
      and spawn does not throw. */
  lemma SpawnIff(s: Engine, e: Event)
    ensures (exists a :: a in Step(s, e).1 && a.Spawn?) <==>
      e.Start? && !RecordingUnavailable(e.select.recordingUrl) && !e.spawnThrows
  {
    var r := Step(s, e);
    if e.Start? && !RecordingUnavailable(e.select.recordingUrl) && !e.spawnThrows {
      assert r.1[0].Spawn?;
    }
  }

  /** Every event publishes except a stop and a start that spawned. */
  lemma PublishIff(s: Engine, e: Event)
    ensures Publish in Step(s, e).1 <==>
      !e.Stop? && !(e.Start? && !RecordingUnavailable(e.select.recordingUrl) && !e.spawnThrows)
  {
  }

  /** Only the process's spawn event makes the engine active. */
  lemma ActiveOnlyOnSpawn(s: Engine, e: Event)
    requires s.status != Active
    ensures Step(s, e).0.status == Active <==> e.Spawned?
  {
  }

  /** An unavailable recording, one whose URL reports that it was not found
      or that it is still being transcoded, fails the start whatever the
      engine held. */
  lemma UnavailableSpawnsNothing(s: Engine, select: EventSelect, hevc: bool, url: string, throws: bool)
    requires Contains(select.recordingUrl, "Recording Not Found") ||
             Contains(select.recordingUrl, "Transcoding in Progress")
    ensures Step(s, Start(select, hevc, url, throws)) == (Engine(Failed, false), [Publish])
  {
  }

  /** `stop` is idempotent: a second stop changes nothing and does nothing. */
  lemma StopIdempotent(s: Engine)
    ensures Step(Step(s, Stop).0, Stop) == (Step(s, Stop).0, [])
  {
  }

  /** `start` does not look at a held process: it spawns a second one
      without killing the first. */
  lemma StartIgnoresHeldProcess(s: Engine, select: EventSelect, hevc: bool, url: string)
    requires s.session && !RecordingUnavailable(select.recordingUrl)
    ensures Kill !in Step(s, Start(select, hevc, url, false)).1
    ensures Step(s, Start(select, hevc, url, false)).0.session
  {
  }
}

=== FILE: live_controller.dfy ===
/** The LiveStream controller: it owns one worker thread, asks the cloud for
    a signaling ticket, forwards start/stop to the worker and mirrors the
    worker's state messages into its own status. */
module LiveController {
  import opened Common
  import opened Protocol

  datatype Controller = Controller(status: Status, session: bool)

  const Init := Controller(Inactive, false)

  /** The endpoint the ticket request is POSTed to. */
  const TicketUrl := "https://app.ring.com/api/v1/clap/ticket/request/signalsocket"

  /** How the ticket request settled. */
  datatype TicketReply =
    | Reply(ticket: Option<string>)          // resolved; the response's `ticket` field
    | RequestFailed(statusCode: Option<int>) // rejected; the HTTP status when the error has one

  datatype Action =
    | RequestTicket(url: string)  // the REST POST for a ticket
    | Post(cmd: Command)          // worker.postMessage
    | Publish                     // publishStreamState()

  /** The start handler is split at its one await: `StartCalled` runs up to
      the ticket request, `TicketSettled` runs the rest. */
  datatype Event =
    | Received(m: Message)
    | StartCalled
    | TicketSettled(rtspPublishUrl: string, reply: TicketReply)
    | StopCalled

  /** A JavaScript string is truthy when it is present and not empty. */
  predicate Truthy(t: Option<string>)
  {
    t.Some? && t.value != ""
  }

  /** The reply left a usable ticket in `streamData.ticket`. */
  predicate TicketAcquired(reply: TicketReply)
  {
    reply.Reply? && Truthy(reply.ticket)
  }

  /** The worker's `message` handler. */
  function OnMessage(c: Controller, m: Message): (r: (Controller, seq<Action>))
    ensures m.State? ==> r.1 == [Publish]
    ensures m.State? && ParseStatus(m.data).Some? ==>
      r.0.status == ParseStatus(m.data).value && (r.0.session <==> r.0.status == Active)
    ensures m.State? && ParseStatus(m.data).None? ==> r.0 == c
    ensures !m.State? ==> r == (c, [])
  {
    match m
    case State(data, _) =>
      var c' :=
        if data == "active" then Controller(Active, true)
        else if data == "inactive" then Controller(Inactive, false)
        else if data == "failed" then Controller(Failed, false)
        else c;
      (c', [Publish])
    case LogInfo => (c, [])
    case LogError => (c, [])
  }

  /** `start` up to the ticket request: the session is marked before the
      ticket is known. */
  function BeginStart(c: Controller): (r: (Controller, seq<Action>))
    ensures r.0.session && r.0.status == c.status
    ensures r.1 == [RequestTicket(TicketUrl)]
  {
    (c.(session := true), [RequestTicket(TicketUrl)])
  }

  /** `start` after the ticket request settled. */
  function FinishStart(c: Controller, url: string, reply: TicketReply): (r: (Controller, seq<Action>))
    ensures TicketAcquired(reply) ==>
      r.0 == c && r.1 == [Post(StartCommand(StreamData(url, reply.ticket.value)))]
    ensures !TicketAcquired(reply) ==> r.0 == Controller(Failed, false) && r.1 == [Publish]
  {
    var ticket := if reply.Reply? then reply.ticket else None;
    if ticket.Some? && ticket.value != "" then
      (c, [Post(Command("start", Some(StreamData(url, ticket.value))))])
    else
      (Controller(Failed, false), [Publish])
  }

  /** `stop`: tells the worker only when a session is tracked, and always
      resets the local state without publishing it. */
  function Stop(c: Controller): (r: (Controller, seq<Action>))
    ensures r.0 == Controller(Inactive, false)
    ensures Publish !in r.1
    ensures |r.1| <= 1 && (Post(StopCommand) in r.1 <==> c.session)
  {
    (Controller(Inactive, false), if c.session then [Post(Command("stop", None))] else [])
  }

  function Step(c: Controller, e: Event): (Controller, seq<Action>)
  {
    match e
    case Received(m) => OnMessage(c, m)
    case StartCalled => BeginStart(c)
    case TicketSettled(url, reply) => FinishStart(c, url, reply)
    case StopCalled => Stop(c)
  }

  /** Only a state message or a failed start is published. */
  lemma PublishIff(c: Controller, e: Event)
    ensures Publish in Step(c, e).1 <==>
      (e.Received? && e.m.State?) || (e.TicketSettled? && !TicketAcquired(e.reply))
  {
  }

  /** Only a start with a ticket, or a stop while a session is tracked, talks
      to the worker; a start command always carries the ticket and URL. */
  lemma PostIff(c: Controller, e: Event)
    ensures (exists a :: a in Step(c, e).1 && a.Post?) <==>
      (e.TicketSettled? && TicketAcquired(e.reply)) || (e.StopCalled? && c.session)
    ensures forall d :: Post(StartCommand(d)) in Step(c, e).1 ==>
      e.TicketSettled? && d == StreamData(e.rtspPublishUrl, e.reply.ticket.value)
  {
    var r := Step(c, e);
    if e.TicketSettled? && TicketAcquired(e.reply) {
      assert r.1[0] in r.1;
    } else if e.StopCalled? && c.session {
      assert r.1[0] in r.1;
    }
  }

  /** A refusal (HTTP 403) ends exactly like any other ticket failure; only
      the log line differs. */
  lemma ForbiddenIsAnyFailure(c: Controller, url: string, other: TicketReply)
    requires !TicketAcquired(other)
    ensures FinishStart(c, url, RequestFailed(Some(403))) == FinishStart(c, url, other)
  {
  }

  /** A complete start without a ticket leaves the controller failed and the
      worker untouched, whatever state it started from. */
  lemma StartWithoutTicket(c: Controller, url: string, reply: TicketReply)
    requires !TicketAcquired(reply)
    ensures var (c1, a1) := BeginStart(c);
            var (c2, a2) := FinishStart(c1, url, reply);
            c2 == Controller(Failed, false) && a1 + a2 == [RequestTicket(TicketUrl), Publish]
  {
  }

  /** Stopping twice: the second stop finds no session and sends nothing. */
  lemma StopIdempotent(c: Controller)
    ensures Stop(Stop(c).0) == (Stop(c).0, [])
  {
  }

  /** Log messages never move the status or the session. */
  lemma LogsChangeNothing(c: Controller, m: Message)
    requires !m.State?
    ensures Step(c, Received(m)).0 == c
  {
  }
}

=== FILE: live_system.dfy ===
/** The controller and the basic worker together: each side's posts go into
    an ordered queue that the other side takes from one message at a time. */
module LiveSystem {
  import opened Common
  import opened Protocol
  import LiveController
  import LiveWorker

  datatype System = System(
    controller: LiveController.Controller,
    worker: LiveWorker.Worker,
    toWorker: seq<Command>,      // posted by the controller, not yet handled
    toController: seq<Message>)  // posted by the worker, not yet handled

  const Init := System(LiveController.Init, LiveWorker.Init(LiveWorker.Basic), [], [])

  datatype Event =
    | StartCalled
    | TicketSettled(rtspPublishUrl: string, reply: LiveController.TicketReply)
    | StopCalled
    | WorkerTakes(env: LiveWorker.Env)                 // the worker handles the oldest command
    | Transcoded(result: LiveWorker.TranscodeResult)
    | Connection(state: string)
    | CallEnded
    | SettleElapsed
    | ControllerTakes                                   // the controller handles the oldest message

  /** The commands among the controller's actions, in order. */
  function Commands(acts: seq<LiveController.Action>): (cs: seq<Command>)
    ensures |cs| <= |acts|
    ensures forall c :: c in cs <==> LiveController.Post(c) in acts
    decreases |acts|
  {
    if |acts| == 0 then []
    else
      var rest := Commands(acts[1..]);
      assert forall a :: a in acts <==> a == acts[0] || a in acts[1..];
      if acts[0].Post? then [acts[0].cmd] + rest else rest
  }

  /** The messages among the worker's outputs, in order. */
  function Messages(outs: seq<LiveWorker.Out>): (ms: seq<Message>)
    ensures |ms| <= |outs|
    ensures forall m :: m in ms <==> LiveWorker.Post(m) in outs
    decreases |outs|
  {
    if |outs| == 0 then []
    else
      var rest := Messages(outs[1..]);
      assert forall o :: o in outs <==> o == outs[0] || o in outs[1..];
      if outs[0].Post? then [outs[0].m] + rest else rest
  }

  lemma {:induction false} MessagesAppend(a: seq<LiveWorker.Out>, b: seq<LiveWorker.Out>)
    ensures Messages(a + b) == Messages(a) + Messages(b)
    decreases |a|
  {
    if |a| > 0 {
      assert (a + b)[1..] == a[1..] + b;
      MessagesAppend(a[1..], b);
    } else {
      assert a + b == b;
    }
  }

  function ControllerStep(s: System, e: LiveController.Event): System
  {
    var (c, acts) := LiveController.Step(s.controller, e);
    s.(controller := c, toWorker := s.toWorker + Commands(acts))
  }

  function WorkerStep(s: System, e: LiveWorker.Event): System
  {
    var (w, outs) := LiveWorker.Step(s.worker, e);
    s.(worker := w, toController := s.toController + Messages(outs))
  }

  function Step(s: System, e: Event): System
  {
    match e
    case StartCalled => ControllerStep(s, LiveController.StartCalled)
    case TicketSettled(url, reply) => ControllerStep(s, LiveController.TicketSettled(url, reply))
    case StopCalled => ControllerStep(s, LiveController.StopCalled)
    case WorkerTakes(env) =>
      if |s.toWorker| == 0 then s
      else WorkerStep(s.(toWorker := s.toWorker[1..]), LiveWorker.Received(s.toWorker[0], env))
    case Transcoded(res) => WorkerStep(s, LiveWorker.TranscodingSettled(res))
    case Connection(state) => WorkerStep(s, LiveWorker.ConnectionState(state))
    case CallEnded => WorkerStep(s, LiveWorker.CallEnded)
    case SettleElapsed => WorkerStep(s, LiveWorker.SettleElapsed)
    case ControllerTakes =>
      if |s.toController| == 0 then s
      else ControllerStep(s.(toController := s.toController[1..]), LiveController.Received(s.toController[0]))
  }

  // ---------------------------------------------------------------------
  // The controller mirrors the last recognised state message

  /** The controller after handling `ms` in order. */
  function Feed(c: LiveController.Controller, ms: seq<Message>): LiveController.Controller
    decreases |ms|
  {
    if |ms| == 0 then c else Feed(LiveController.OnMessage(c, ms[0]).0, ms[1..])
  }

  /** The status named by the last state message whose word is recognised. */
  function LastStatus(ms: seq<Message>): Option<Status>
    decreases |ms|
  {
    if |ms| == 0 then None
    else
      var m := ms[|ms| - 1];
      if m.State? && ParseStatus(m.data).Some? then ParseStatus(m.data)
      else LastStatus(ms[..|ms| - 1])
  }

  lemma {:induction false} FeedSnoc(c: LiveController.Controller, ms: seq<Message>, m: Message)
    ensures Feed(c, ms + [m]) == LiveController.OnMessage(Feed(c, ms), m).0
    decreases |ms|
  {
    if |ms| == 0 {
      assert ms + [m] == [m];
    } else {
      assert (ms + [m])[1..] == ms[1..] + [m];
      FeedSnoc(LiveController.OnMessage(c, ms[0]).0, ms[1..], m);
    }
  }

  /** Handling a batch of messages leaves the status the last recognised
      state message names, with a session exactly when that status is
      active; without one the controller is unchanged. */
  lemma {:induction false} FeedMirrorsLastStatus(c: LiveController.Controller, ms: seq<Message>)
    ensures LastStatus(ms).Some? ==>
      Feed(c, ms) == LiveController.Controller(LastStatus(ms).value, LastStatus(ms).value == Active)
    ensures LastStatus(ms).None? ==> Feed(c, ms) == c
    decreases |ms|
  {
    if |ms| > 0 {
      var init := ms[..|ms| - 1];
      var m := ms[|ms| - 1];
      assert ms == init + [m];
      FeedSnoc(c, init, m);
      FeedMirrorsLastStatus(c, init);
    }
  }

  // ---------------------------------------------------------------------
  // Whole-system traces

  /** A start with a ticket, a session that opens, a transcoder that starts
      and a connection that comes up: the worker's five messages reach the
      controller in order, and handling them leaves it active with a session. */
  lemma StartToActive(url: string, ticket: string, stop: LiveWorker.StopEnv)
    requires ticket != ""
    ensures Step(Step(Init, StartCalled), TicketSettled(url, LiveController.Reply(Some(ticket)))) ==
      System(Starting, LiveWorker.Init(LiveWorker.Basic), [StartCommand(StreamData(url, ticket))], [])
    ensures Step(Step(Step(
        System(Starting, LiveWorker.Init(LiveWorker.Basic), [StartCommand(StreamData(url, ticket))], []),
        WorkerTakes(LiveWorker.Env(true, stop))),
        Transcoded(LiveWorker.Started(None))),
        Connection("connected")) ==
      System(Starting, Subscribed, [], [LogInfo, LogInfo, LogInfo, State("active", NoField), LogInfo])
    ensures Subscribed.liveStream
    ensures Feed(Starting, [LogInfo, LogInfo, LogInfo, State("active", NoField), LogInfo]) ==
      LiveController.Controller(Active, true)
  {
    TicketStage(url, ticket);
    WorkerStartStage(Starting, StreamData(url, ticket), stop);
    TranscodedStage(Starting, [LogInfo, LogInfo]);
    ConnectedStage(Starting, [LogInfo, LogInfo, LogInfo]);
    assert [LogInfo, LogInfo] + [LogInfo] == [LogInfo, LogInfo, LogInfo];
    assert [LogInfo, LogInfo, LogInfo] + [State("active", NoField), LogInfo] ==
      [LogInfo, LogInfo, LogInfo, State("active", NoField), LogInfo];
    StartMessagesActivate();
  }

  /** The worker's messages for a successful start leave the controller active. */
  lemma StartMessagesActivate()
    ensures Feed(Starting, [LogInfo, LogInfo, LogInfo, State("active", NoField), LogInfo]) ==
      LiveController.Controller(Active, true)
  {
    var ms := [LogInfo, LogInfo, LogInfo, State("active", NoField), LogInfo];
    assert ms[..4][..3] == [LogInfo, LogInfo, LogInfo];
    assert LastStatus(ms) == Some(Active);
    FeedMirrorsLastStatus(Starting, ms);
  }

  /** The controller while its start is under way. */
  const Starting := LiveController.Controller(Inactive, true)

  /** The basic worker after a start whose session opened. */
  const Opened := LiveWorker.Init(LiveWorker.Basic).(liveStream := true, connectionHandlers := 1, transcoding := 1)

  /** The basic worker once its transcoder started. */
  const Subscribed := Opened.(transcoding := 0, callEndedHandlers := 1)

  lemma TicketStage(url: string, ticket: string)
    requires ticket != ""
    ensures Step(Step(Init, StartCalled), TicketSettled(url, LiveController.Reply(Some(ticket)))) ==
      System(Starting, LiveWorker.Init(LiveWorker.Basic), [StartCommand(StreamData(url, ticket))], [])
  {
    var d := StreamData(url, ticket);
    assert Commands([LiveController.RequestTicket(LiveController.TicketUrl)]) == [];
    assert Commands([LiveController.Post(StartCommand(d))]) == [StartCommand(d)];
  }

  lemma WorkerStartStage(c: LiveController.Controller, d: StreamData, stop: LiveWorker.StopEnv)
    ensures Step(System(c, LiveWorker.Init(LiveWorker.Basic), [StartCommand(d)], []),
                 WorkerTakes(LiveWorker.Env(true, stop))) ==
      System(c, Opened, [], [LogInfo, LogInfo])
  {
    FreshWorkerStarts(d, stop);
    TwoMessages(StartOuts(d));
  }

  /** The outputs of the basic worker's start: two log lines, the session
      and the transcoder. */
  function StartOuts(d: StreamData): seq<LiveWorker.Out>
  {
    [LiveWorker.Post(LogInfo), LiveWorker.OpenSession(d.ticket), LiveWorker.Post(LogInfo),
     LiveWorker.StartTranscoding(LiveWorker.Config(LiveWorker.Basic, d.rtspPublishUrl))]
  }

  lemma FreshWorkerStarts(d: StreamData, stop: LiveWorker.StopEnv)
    ensures LiveWorker.Step(LiveWorker.Init(LiveWorker.Basic),
                            LiveWorker.Received(StartCommand(d), LiveWorker.Env(true, stop))) ==
      (Opened, StartOuts(d))
  {
    var w0 := LiveWorker.Init(LiveWorker.Basic);
    assert LiveWorker.StartLiveStream(w0, Some(d), true).1 == StartOuts(d);
    assert LiveWorker.StartLiveStream(w0, Some(d), true).0 == Opened;
  }

  lemma TranscodedStage(c: LiveController.Controller, ms: seq<Message>)
    ensures Step(System(c, Opened, [], ms), Transcoded(LiveWorker.Started(None))) ==
      System(c, Subscribed, [], ms + [LogInfo])
  {
    assert Messages([LiveWorker.Post(LogInfo)]) == [LogInfo];
  }

  lemma ConnectedStage(c: LiveController.Controller, ms: seq<Message>)
    ensures Step(System(c, Subscribed, [], ms), Connection("connected")) ==
      System(c, Subscribed, [], ms + [State("active", NoField), LogInfo])
  {
    var active := LiveWorker.StateMessage(Subscribed, "active");
    assert active == State("active", NoField);
    assert LiveWorker.Step(Subscribed, LiveWorker.ConnectionState("connected")) ==
      (Subscribed, [LiveWorker.Post(active), LiveWorker.Post(LogInfo)]);
    MessagesOfPosts(active, LogInfo);
  }

  /** The messages of the worker's start outputs: the two log lines. */
  lemma TwoMessages(outs: seq<LiveWorker.Out>)
    requires |outs| == 4 && outs[0] == outs[2] == LiveWorker.Post(LogInfo)
    requires !outs[1].Post? && !outs[3].Post?
    ensures Messages(outs) == [LogInfo, LogInfo]
  {
    assert Messages(outs[3..]) == [];
    assert outs[2..][1..] == outs[3..];
    assert Messages(outs[2..]) == [LogInfo];
    assert outs[1..][1..] == outs[2..];
    assert Messages(outs[1..]) == [LogInfo];
  }

  lemma MessagesOfPosts(a: Message, b: Message)
    ensures Messages([LiveWorker.Post(a), LiveWorker.Post(b)]) == [a, b]
  {
    var outs := [LiveWorker.Post(a), LiveWorker.Post(b)];
    assert Messages(outs[1..]) == [b];
  }

  /** A failed connection is mirrored as a failed controller with no
      session, so a later stop is not forwarded, although the worker still
      holds the session until the settle delay runs out. */
  lemma FailedConnectionSwallowsStop(s: System)
    requires s.worker.connectionHandlers > 0 && s.worker.liveStream && s.worker.variant == LiveWorker.Basic
    requires s.toController == []
    ensures
      var s1 := Step(s, Connection("failed"));
      var s2 := Step(s1, ControllerTakes);
      var s3 := Step(s2, StopCalled);
      && s1.worker.liveStream
      && s2.controller == LiveController.Controller(Failed, false)
      && s3.toWorker == s.toWorker
      && Step(s3, SettleElapsed).worker.liveStream == false
  {
    var s1 := Step(s, Connection("failed"));
    assert s1.toController[0] == State("failed", NoField);
  }
}

=== FILE: live_worker.dfy ===
/** The LiveStreamWorker that runs on its own thread: it opens the WebRTC
    streaming session, reacts to the session's connection-state and
    call-ended notifications, and stops the session with a bounded retry
    loop. Both variants of the worker are modelled; `AltVideoCapture` also
    keeps the alternate-video description the transcoder returns and sends
    it with every state message. */
module LiveWorker {
  import opened Common
  import opened Protocol
  import opened Args

  datatype Variant =
    | Basic            // the worker the controller loads
    | AltVideoCapture  // the variant that records altVideoData

  datatype Worker = Worker(
    variant: Variant,
    liveStream: bool,              // a StreamingSession is held
    stopping: bool,                // stopLiveStream is running
    isStreamStopping: bool,        // the flag the start guard reads
    altVideoData: Option<AltVideo>,
    connectionHandlers: nat,       // onConnectionState subscriptions made
    callEndedHandlers: nat,        // onCallEnded subscriptions made
    transcoding: nat,              // startTranscoding calls not yet settled
    settling: nat)                 // settle timers pending after a failed connection

  function Init(v: Variant): Worker
  {
    Worker(v, false, false, false, None, 0, 0, 0, 0)
  }

  /** The number of 200 ms waits stopLiveStream allows itself. */
  const StopBudget: nat := 10

  /** The structured option lists handed to the session's transcoder. */
  datatype TranscodingConfig = TranscodingConfig(
    input: seq<string>, audio: seq<string>, video: seq<string>, output: seq<string>)

  datatype Out =
    | Post(m: Message)                          // parentPort.postMessage
    | OpenSession(ticket: string)               // new WebrtcConnection + new StreamingSession
    | StartTranscoding(config: TranscodingConfig)
    | SessionStop                               // liveStream.stop()

  /** A handler that can run while stopLiveStream waits, and that clears the
      session when it has something to act on. */
  datatype Interrupt =
    | CallEndedFires   // the onCallEnded subscriber
    | SettleFires      // the settle delay of a failed connection runs out
    | TranscoderFails  // the await on the transcoder in startLiveStream rejects

  /** What the rest of the world does while stopLiveStream waits: the handler
      that runs during each 200 ms wait (counting from 0), and the
      liveStream.stop() call (counting from 0) that throws. */
  datatype StopEnv = StopEnv(during: map<nat, Interrupt>, throwsOnCall: Option<nat>)

  /** The collaborators' behaviour for one command: whether the WebRTC
      connection and session objects could be constructed, and how a stop
      goes. */
  datatype Env = Env(sessionOpens: bool, stop: StopEnv)

  /** How `await liveStream.startTranscoding(config)` settled. */
  datatype TranscodeResult = Started(altVideoData: Option<AltVideo>) | TranscodeFailed

  /** The start handler is split at its await on the transcoder; the
      connection-failure handler at its 2000 ms settle delay. */
  datatype Event =
    | Received(cmd: Command, env: Env)
    | TranscodingSettled(result: TranscodeResult)
    | ConnectionState(state: string)
    | CallEnded
    | SettleElapsed

  /** A state message as `updateState` builds it in each variant. */
  function StateMessage(w: Worker, data: string): Message
  {
    State(data, if w.variant == Basic then NoField else Field(w.altVideoData))
  }

  // ---------------------------------------------------------------------
  // Transcoding configuration

  /** The option lists for the session's transcoder in each variant. */
  function Config(v: Variant, url: string): (c: TranscodingConfig)
    ensures PublishesTo(c.output, url)
    ensures c.video == ["-map", "0:v", "-c:v", "copy"]
    ensures HasOption(c.audio, "-c:a:0", "aac") && HasOption(c.audio, "-c:a:1", "copy")
    ensures HasOption(c.input, "-analyzeduration", "0")
  {
    var audio := ["-map", "0:a", "-c:a:0", "aac", "-map", "0:a", "-c:a:1", "copy"];
    var video := ["-map", "0:v", "-c:v", "copy"];
    assert audio[2] == "-c:a:0" && audio[3] == "aac" && audio[6] == "-c:a:1" && audio[7] == "copy";
    match v
    case Basic =>
      var input := ["-use_wallclock_as_timestamps", "1", "-itsoffset", "0.2",
                    "-probesize", "32K", "-analyzeduration", "0"];
      var output := ["-flags", "+global_header", "-avioflags", "direct",
                     "-f", "rtsp", "-rtsp_transport", "tcp", url];
      assert input[6] == "-analyzeduration" && input[7] == "0";
      assert output[4] == "-f" && output[5] == "rtsp" && output[6] == "-rtsp_transport" && output[7] == "tcp";
      TranscodingConfig(input, audio, video, output)
    case AltVideoCapture =>
      var input := ["-probesize", "32K", "-analyzeduration", "0"];
      var output := ["-ss", "0.2", "-flags", "+global_header",
                     "-f", "rtsp", "-rtsp_transport", "tcp", url];
      assert input[2] == "-analyzeduration" && input[3] == "0";
      assert output[4] == "-f" && output[5] == "rtsp" && output[6] == "-rtsp_transport" && output[7] == "tcp";
      TranscodingConfig(input, audio, video, output)
  }

  // ---------------------------------------------------------------------
  // The stop-retry loop

  datatype StopOutcome = StopOutcome(worker: Worker, out: seq<Out>, waits: nat, calls: nat, threw: bool)

  /** The handler that runs during a wait, applied to the worker. */
  function Interleave(w: Worker, i: Interrupt): (Worker, seq<Out>)
  {
    match i
    case CallEndedFires => OnCallEnded(w)
    case SettleFires => OnSettleElapsed(w)
    case TranscoderFails => OnTranscodingSettled(w, TranscodeFailed)
  }

  /** The worker and the posts after wait `k`. */
  function AfterWait(w: Worker, env: StopEnv, k: nat): (Worker, seq<Out>)
  {
    if k in env.during then Interleave(w, env.during[k]) else (w, [])
  }

  /** What an interleaved handler may touch: the session, the pending settle
      timers and transcoder starts, which only go down; it never stops the
      session, and its state messages carry the worker's altVideoData. */
  lemma InterleaveFrame(w: Worker, env: StopEnv, k: nat)
    ensures var (w1, side) := AfterWait(w, env, k);
      && w1 == w.(liveStream := w1.liveStream, settling := w1.settling, transcoding := w1.transcoding)
      && w1.settling <= w.settling && w1.transcoding <= w.transcoding
      && (w1.liveStream ==> w.liveStream)
      && SessionStop !in side
      && (forall m :: Post(m) in side && m.State? ==> m == StateMessage(w, m.data))
  {
  }

  /** The while loop of stopLiveStream, entered with `budget` waits left,
      after `waits` waits and `calls` calls of liveStream.stop(). */
  function StopRounds(w: Worker, env: StopEnv, budget: nat, waits: nat, calls: nat): StopOutcome
    decreases budget
  {
    if !w.liveStream || budget == 0 then
      StopOutcome(w, [], waits, calls, false)
    else
      var (w1, side) := AfterWait(w, env, waits);
      if !w1.liveStream then
        // the handler cleared the session during this wait; the loop ends
        StopOutcome(w1, side + [Post(LogError), Post(StateMessage(w1, "inactive"))], waits + 1, calls, false)
      else if env.throwsOnCall == Some(calls) then
        StopOutcome(w1, side + [Post(LogInfo), SessionStop], waits + 1, calls + 1, true)
      else
        var rest := StopRounds(w1, env, budget - 1, waits + 1, calls + 1);
        rest.(out := side + [Post(LogInfo), SessionStop] + rest.out)
  }

  /** The inactive report the loop posts when it finds the session gone. */
  predicate EndsDeletingAnyway(o: StopOutcome)
  {
    && |o.out| >= 2
    && o.out[|o.out| - 2] == Post(LogError)
    && o.out[|o.out| - 1] == Post(StateMessage(o.worker, "inactive"))
  }

  /** What the loop may change: the session, and the settle timers and
      transcoder starts the interleaved handlers release. */
  lemma {:induction false} RoundsFrame(w: Worker, env: StopEnv, budget: nat, waits: nat, calls: nat)
    ensures var o := StopRounds(w, env, budget, waits, calls);
      && o.worker == w.(liveStream := o.worker.liveStream, settling := o.worker.settling,
                        transcoding := o.worker.transcoding)
      && o.worker.settling <= w.settling && o.worker.transcoding <= w.transcoding
    decreases budget
  {
    if w.liveStream && budget > 0 {
      InterleaveFrame(w, env, waits);
      var w1 := AfterWait(w, env, waits).0;
      if w1.liveStream && env.throwsOnCall != Some(calls) {
        RoundsFrame(w1, env, budget - 1, waits + 1, calls + 1);
      }
    }
  }

  /** The loop's counts: at most `budget` more waits and at most one stop()
      call per wait. */
  lemma {:induction false} RoundsCounts(w: Worker, env: StopEnv, budget: nat, waits: nat, calls: nat)
    ensures var o := StopRounds(w, env, budget, waits, calls);
      && waits <= o.waits <= waits + budget && calls <= o.calls <= calls + budget
      && o.calls - calls <= o.waits - waits
    decreases budget
  {
    if w.liveStream && budget > 0 {
      var w1 := AfterWait(w, env, waits).0;
      if w1.liveStream && env.throwsOnCall != Some(calls) {
        RoundsCounts(w1, env, budget - 1, waits + 1, calls + 1);
      }
    }
  }

  /** One stop action in `o` per stop() call made since `calls`. */
  predicate OneStopPerCall(o: StopOutcome, calls: nat)
  {
    multiset(o.out)[SessionStop] == o.calls - calls
  }

  /** One stop action per stop() call. */
  lemma {:induction false} RoundsStopActions(w: Worker, env: StopEnv, budget: nat, waits: nat, calls: nat)
    ensures OneStopPerCall(StopRounds(w, env, budget, waits, calls), calls)
    decreases budget
  {
    if !w.liveStream || budget == 0 {
    } else if !AfterWait(w, env, waits).0.liveStream || env.throwsOnCall == Some(calls) {
      LastRoundStopActions(w, env, budget, waits, calls);
    } else {
      RoundsStopActions(AfterWait(w, env, waits).0, env, budget - 1, waits + 1, calls + 1);
      RetryRoundStopActions(w, env, budget, waits, calls);
    }
  }

  lemma LastRoundStopActions(w: Worker, env: StopEnv, budget: nat, waits: nat, calls: nat)
    requires w.liveStream && budget > 0
    requires !AfterWait(w, env, waits).0.liveStream || env.throwsOnCall == Some(calls)
    ensures OneStopPerCall(StopRounds(w, env, budget, waits, calls), calls)
  {
    var (w1, side) := AfterWait(w, env, waits);
    InterleaveNeverStops(w, env, waits);
    var o := StopRounds(w, env, budget, waits, calls);
    if !w1.liveStream {
      ClearedRound(w, env, budget, waits, calls);
      assert multiset(o.out) == multiset(side) + multiset([Post(LogError), Post(StateMessage(w1, "inactive"))]);
    } else {
      ThrowingRound(w, env, budget, waits, calls);
      assert multiset(o.out) == multiset(side) + multiset([Post(LogInfo), SessionStop]);
    }
  }

  lemma RetryRoundStopActions(w: Worker, env: StopEnv, budget: nat, waits: nat, calls: nat)
    requires w.liveStream && budget > 0
    requires AfterWait(w, env, waits).0.liveStream && env.throwsOnCall != Some(calls)
    requires OneStopPerCall(StopRounds(AfterWait(w, env, waits).0, env, budget - 1, waits + 1, calls + 1), calls + 1)
    ensures OneStopPerCall(StopRounds(w, env, budget, waits, calls), calls)
  {
    var (w1, side) := AfterWait(w, env, waits);
    InterleaveNeverStops(w, env, waits);
    RetryRound(w, env, budget, waits, calls);
    var rest := StopRounds(w1, env, budget - 1, waits + 1, calls + 1);
    var o := StopRounds(w, env, budget, waits, calls);
    assert multiset(o.out) == multiset(side) + multiset([Post(LogInfo), SessionStop]) + multiset(rest.out);
  }

  /** An interleaved handler never calls stop(). */
  lemma InterleaveNeverStops(w: Worker, env: StopEnv, k: nat)
    ensures multiset(AfterWait(w, env, k).1)[SessionStop] == 0
  {
  }

  /** How the loop ends: holding the session without an exception only after
      its whole budget, and without the session only through the inactive
      report. */
  lemma {:induction false} RoundsExit(w: Worker, env: StopEnv, budget: nat, waits: nat, calls: nat)
    ensures var o := StopRounds(w, env, budget, waits, calls);
      && (!o.threw && o.worker.liveStream && w.liveStream ==> o.waits == waits + budget && o.calls == calls + budget)
      && (!o.threw && !o.worker.liveStream && w.liveStream ==> EndsDeletingAnyway(o))
      && (!w.liveStream ==> o == StopOutcome(w, [], waits, calls, false))
    decreases budget
  {
    if w.liveStream && budget > 0 {
      var (w1, side) := AfterWait(w, env, waits);
      if w1.liveStream && env.throwsOnCall != Some(calls) {
        RoundsExit(w1, env, budget - 1, waits + 1, calls + 1);
        var rest := StopRounds(w1, env, budget - 1, waits + 1, calls + 1);
        var out := side + [Post(LogInfo), SessionStop] + rest.out;
      }
    }
  }

  /** The loop's bounds: at most `budget` more waits, one stop() call per
      retry, nothing changes but the session and what the interleaved
      handlers release; a loop that ends holding the session without an
      exception has used up its whole budget, and one that ends without it
      has reported the session inactive. */
  lemma StopRoundsBounds(w: Worker, env: StopEnv, budget: nat, waits: nat, calls: nat)
    ensures var o := StopRounds(w, env, budget, waits, calls);
      && o.worker == w.(liveStream := o.worker.liveStream, settling := o.worker.settling,
                        transcoding := o.worker.transcoding)
      && o.worker.settling <= w.settling && o.worker.transcoding <= w.transcoding
      && waits <= o.waits <= waits + budget && calls <= o.calls <= calls + budget
      && o.calls - calls <= o.waits - waits
      && multiset(o.out)[SessionStop] == o.calls - calls
      && (!o.threw && o.worker.liveStream && w.liveStream ==> o.waits == waits + budget && o.calls == calls + budget)
      && (!o.threw && !o.worker.liveStream && w.liveStream ==> EndsDeletingAnyway(o))
      && (!w.liveStream ==> o == StopOutcome(w, [], waits, calls, false))
  {
    RoundsFrame(w, env, budget, waits, calls);
    RoundsCounts(w, env, budget, waits, calls);
    RoundsStopActions(w, env, budget, waits, calls);
    RoundsExit(w, env, budget, waits, calls);
  }

  /** stopLiveStream: absorbed while a stop is running; otherwise one stop()
      call and then the bounded retry loop. An exception from stop() escapes
      and leaves `stopping` set. */
  function StopLiveStream(w: Worker, env: StopEnv): (o: StopOutcome)
    ensures w.stopping ==> o == StopOutcome(w, [], 0, 0, false)
    ensures o.waits <= StopBudget && o.calls <= StopBudget + 1
    ensures multiset(o.out)[SessionStop] == o.calls
    ensures o.worker == w.(liveStream := o.worker.liveStream, stopping := o.worker.stopping,
                           settling := o.worker.settling, transcoding := o.worker.transcoding)
    ensures o.worker.settling <= w.settling && o.worker.transcoding <= w.transcoding
    ensures !w.stopping ==> (o.worker.stopping <==> o.threw)
    ensures !w.liveStream ==> !o.worker.liveStream
    ensures !w.stopping && w.liveStream && !o.threw && o.worker.liveStream ==>
      o.waits == StopBudget && o.calls == StopBudget + 1
    ensures !w.stopping && w.liveStream && !o.threw && !o.worker.liveStream ==>
      EndsDeletingAnyway(o)
  {
    if w.stopping then StopOutcome(w, [], 0, 0, false)
    else
      var w1 := w.(stopping := true);
      if !w1.liveStream then
        // liveStream.stop() on a null session throws before any call is made
        StopOutcome(w1, [], 0, 0, true)
      else if env.throwsOnCall == Some(0) then
        StopOutcome(w1, [SessionStop], 0, 1, true)
      else
        StopRoundsBounds(w1, env, StopBudget, 0, 1);
        AfterLoop(StopRounds(w1, env, StopBudget, 0, 1))
  }

  /** The end of stopLiveStream: the first stop() call goes before the
      loop's outputs, and the flag is reset unless the loop threw. */
  function AfterLoop(o: StopOutcome): (r: StopOutcome)
    ensures r.worker == o.worker.(stopping := o.worker.stopping && o.threw)
    ensures r.waits == o.waits && r.calls == o.calls && r.threw == o.threw
    ensures multiset(r.out)[SessionStop] == multiset(o.out)[SessionStop] + 1
    ensures EndsDeletingAnyway(o) ==> EndsDeletingAnyway(r)
  {
    var out := [SessionStop] + o.out;
    assert multiset(out) == multiset([SessionStop]) + multiset(o.out);
    var r := o.(worker := o.worker.(stopping := o.worker.stopping && o.threw), out := out);
    assert StateMessage(r.worker, "inactive") == StateMessage(o.worker, "inactive");
    r
  }

  /** The loop from wait `waits` up to wait `k`, where the first handler runs
      and clears the session: the retries before it, then the handler's own
      posts and the loop's inactive report, with the handler's effects kept. */
  lemma {:induction false} ClearedAtWait(w: Worker, env: StopEnv, budget: nat, waits: nat, calls: nat, k: nat)
    requires w.liveStream && waits <= k < waits + budget
    requires forall j :: j in env.during ==> j >= k
    requires k in env.during && !Interleave(w, env.during[k]).0.liveStream
    requires env.throwsOnCall.None? || env.throwsOnCall.value < calls || env.throwsOnCall.value >= calls + (k - waits)
    ensures StopRounds(w, env, budget, waits, calls).worker == Interleave(w, env.during[k]).0
    ensures StopRounds(w, env, budget, waits, calls).waits == k + 1
    ensures StopRounds(w, env, budget, waits, calls).calls == calls + (k - waits)
    ensures !StopRounds(w, env, budget, waits, calls).threw
    ensures EndsWith(StopRounds(w, env, budget, waits, calls).out,
                     Interleave(w, env.during[k]).1 + [Post(LogError), Post(StateMessage(w, "inactive"))])
    decreases budget
  {
    if waits < k {
      assert waits !in env.during;
      ClearedAtWait(w, env, budget - 1, waits + 1, calls + 1, k);
      var rest := StopRounds(w, env, budget - 1, waits + 1, calls + 1);
      assert StopRounds(w, env, budget, waits, calls).out == [] + [Post(LogInfo), SessionStop] + rest.out;
      EndsWithConcat([] + [Post(LogInfo), SessionStop], rest.out,
                     Interleave(w, env.during[k]).1 + [Post(LogError), Post(StateMessage(w, "inactive"))]);
    }
  }

  /** A stop whose session is cleared by a handler during wait `k`, with no
      earlier handler and no throwing stop() call before it: the loop makes
      k + 1 waits and k + 1 stop() calls, keeps the handler's effects, and
      ends with the handler's posts, an error line and an inactive report. */
  lemma StopClearedDuringWait(w: Worker, env: StopEnv, k: nat)
    requires !w.stopping && w.liveStream && k < StopBudget
    requires forall j :: j in env.during ==> j >= k
    requires k in env.during && !Interleave(w, env.during[k]).0.liveStream
    requires env.throwsOnCall.None? || env.throwsOnCall.value > k
    ensures StopLiveStream(w, env).worker == Interleave(w, env.during[k]).0
    ensures !StopLiveStream(w, env).worker.liveStream && !StopLiveStream(w, env).worker.stopping
    ensures StopLiveStream(w, env).waits == k + 1 && StopLiveStream(w, env).calls == k + 1
    ensures !StopLiveStream(w, env).threw
    ensures EndsWith(StopLiveStream(w, env).out,
                     Interleave(w, env.during[k]).1 + [Post(LogError), Post(StateMessage(w, "inactive"))])
  {
    var w1 := w.(stopping := true);
    InterleaveKeepsStopping(w, env.during[k]);
    ClearedAtWait(w1, env, StopBudget, 0, 1, k);
    var o := StopRounds(w1, env, StopBudget, 0, 1);
    StopIsAfterLoop(w, env);
    AfterLoopOut(o);
    InterleaveFrame(w, env, k);
    EndsWithConcat([SessionStop], o.out, Interleave(w, env.during[k]).1 + [Post(LogError), Post(StateMessage(w, "inactive"))]);
  }

  /** A stop on a held session whose first stop() call returns is the loop
      followed by AfterLoop. */
  lemma StopIsAfterLoop(w: Worker, env: StopEnv)
    requires !w.stopping && w.liveStream && env.throwsOnCall != Some(0)
    ensures StopLiveStream(w, env) == AfterLoop(StopRounds(w.(stopping := true), env, StopBudget, 0, 1))
  {
  }

  lemma AfterLoopOut(o: StopOutcome)
    ensures AfterLoop(o).out == [SessionStop] + o.out
  {
  }

  /** `a` ends with `b`. */
  predicate EndsWith(a: seq<Out>, b: seq<Out>)
  {
    |a| >= |b| && a[|a| - |b|..] == b
  }

  lemma EndsWithConcat(a: seq<Out>, b: seq<Out>, c: seq<Out>)
    requires EndsWith(b, c)
    ensures EndsWith(a + b, c)
  {
    assert (a + b)[|a + b| - |c|..] == b[|b| - |c|..];
  }

  /** An interleaved handler leaves the stopping flag alone. */
  lemma InterleaveKeepsStopping(w: Worker, i: Interrupt)
    ensures Interleave(w.(stopping := true), i) ==
      (Interleave(w, i).0.(stopping := true), Interleave(w, i).1)
  {
  }

  function Prepend(prefix: seq<Out>, o: StopOutcome): StopOutcome
  {
    o.(out := prefix + o.out)
  }

  lemma PrependTwice(a: seq<Out>, b: seq<Out>, o: StopOutcome)
    ensures Prepend(a, Prepend(b, o)) == Prepend(a + b, o)
  {
    assert a + (b + o.out) == (a + b) + o.out;
  }

  /** One retry round of the loop, unfolded. */
  lemma RetryRound(w: Worker, env: StopEnv, budget: nat, waits: nat, calls: nat)
    requires w.liveStream && budget > 0
    requires AfterWait(w, env, waits).0.liveStream && env.throwsOnCall != Some(calls)
    ensures StopRounds(w, env, budget, waits, calls) ==
      Prepend(AfterWait(w, env, waits).1 + [Post(LogInfo), SessionStop],
              StopRounds(AfterWait(w, env, waits).0, env, budget - 1, waits + 1, calls + 1))
  {
  }

  /** A round in which the handler cleared the session during the wait, unfolded. */
  lemma ClearedRound(w: Worker, env: StopEnv, budget: nat, waits: nat, calls: nat)
    requires w.liveStream && budget > 0 && !AfterWait(w, env, waits).0.liveStream
    ensures var (w1, side) := AfterWait(w, env, waits);
      StopRounds(w, env, budget, waits, calls) ==
      StopOutcome(w1, side + [Post(LogError), Post(StateMessage(w1, "inactive"))], waits + 1, calls, false)
  {
  }

  /** A round whose stop() call throws, unfolded. */
  lemma ThrowingRound(w: Worker, env: StopEnv, budget: nat, waits: nat, calls: nat)
    requires w.liveStream && budget > 0
    requires AfterWait(w, env, waits).0.liveStream && env.throwsOnCall == Some(calls)
    ensures var (w1, side) := AfterWait(w, env, waits);
      StopRounds(w, env, budget, waits, calls) ==
      StopOutcome(w1, side + [Post(LogInfo), SessionStop], waits + 1, calls + 1, true)
  {
  }

  /** The retry loop as an imperative loop with a decreasing counter, entered
      after the first stop() call on a held session. The session is cleared
      only in the branch that leaves the loop, so the loop condition reduces
      to the counter. */
  method RunRetryLoop(w: Worker, env: StopEnv) returns (o: StopOutcome)
    requires w.liveStream
    ensures o == Prepend([SessionStop], StopRounds(w, env, StopBudget, 0, 1))
  {
    ghost var whole := Prepend([SessionStop], StopRounds(w, env, StopBudget, 0, 1));
    var cur := w;
    var stopTimeout := StopBudget;
    var out := [SessionStop];
    var waits, calls := 0, 1;
    while stopTimeout > 0
      invariant cur.liveStream
      invariant waits + stopTimeout == StopBudget && calls == waits + 1
      invariant whole == Prepend(out, StopRounds(cur, env, stopTimeout, waits, calls))
      decreases stopTimeout
    {
      // the 200 ms wait, during which another handler may run
      var after := AfterWait(cur, env, waits);
      var next, side := after.0, after.1;
      if !next.liveStream {
        ClearedRound(cur, env, stopTimeout, waits, calls);
        var tail := [Post(LogError), Post(StateMessage(next, "inactive"))];
        assert out + (side + tail) == out + side + tail;
        return StopOutcome(next, out + side + tail, waits + 1, calls, false);
      }
      var step := side + [Post(LogInfo), SessionStop];
      if env.throwsOnCall == Some(calls) {
        ThrowingRound(cur, env, stopTimeout, waits, calls);
        return StopOutcome(next, out + step, waits + 1, calls + 1, true);
      }
      RetryRound(cur, env, stopTimeout, waits, calls);
      PrependTwice(out, step, StopRounds(next, env, stopTimeout - 1, waits + 1, calls + 1));
      out := out + step;
      cur := next;
      waits := waits + 1;
      calls := calls + 1;
      stopTimeout := stopTimeout - 1;
    }
    assert out + [] == out;
    return StopOutcome(cur, out, waits, calls, false);
  }

  /** stopLiveStream as a method: the guards, the first stop() call, the
      loop, and the flag reset on a normal exit. */
  method RunStopLiveStream(w: Worker, env: StopEnv) returns (o: StopOutcome)
    ensures o == StopLiveStream(w, env)
    ensures o.waits <= StopBudget && o.calls <= o.waits + 1
  {
    if w.stopping {
      return StopOutcome(w, [], 0, 0, false);
    }
    var cur := w.(stopping := true);
    if !cur.liveStream {
      return StopOutcome(cur, [], 0, 0, true);
    }
    if env.throwsOnCall == Some(0) {
      return StopOutcome(cur, [SessionStop], 0, 1, true);
    }
    o := RunRetryLoop(cur, env);
    StopRoundsBounds(cur, env, StopBudget, 0, 1);
    if !o.threw {
      o := o.(worker := o.worker.(stopping := false));
    }
  }

  // ---------------------------------------------------------------------
  // Handlers

  /** The start command's guards. */
  function HandleStart(w: Worker, data: Option<StreamData>, opens: bool): (r: (Worker, seq<Out>))
    ensures w.liveStream || w.isStreamStopping ==> r.0 == w && |r.1| == 2 && r.1[0] == Post(LogError)
    ensures !w.isStreamStopping && w.liveStream ==> r.1[1] == Post(StateMessage(w, "active"))
    ensures w.isStreamStopping ==> r.1[1] == Post(StateMessage(w, "failed"))
  {
    if w.isStreamStopping then (w, [Post(LogError), Post(StateMessage(w, "failed"))])
    else if w.liveStream then (w, [Post(LogError), Post(StateMessage(w, "active"))])
    else StartLiveStream(w, data, opens)
  }

  /** startLiveStream up to the await on the transcoder. A missing payload or
      a failing constructor lands in the catch block. */
  function StartLiveStream(w: Worker, data: Option<StreamData>, opens: bool): (r: (Worker, seq<Out>))
    ensures data.Some? && opens ==>
      && r.0.liveStream && r.0.transcoding == w.transcoding + 1
      && r.0.connectionHandlers == w.connectionHandlers + 1
      && r.0.callEndedHandlers == w.callEndedHandlers + (if w.variant == Basic then 0 else 1)
      && OpenSession(data.value.ticket) in r.1
      && StartTranscoding(Config(w.variant, data.value.rtspPublishUrl)) in r.1
    ensures !(data.Some? && opens) ==>
      r.0 == w.(liveStream := false) && r.1 == [Post(LogInfo), Post(LogError), Post(StateMessage(w, "failed"))]
    ensures r.0.altVideoData == w.altVideoData
  {
    var received := [Post(LogInfo)];
    if data.None? || !opens then
      var w' := w.(liveStream := false);
      (w', received + [Post(LogError), Post(StateMessage(w', "failed"))])
    else
      var w1 := w.(liveStream := true, connectionHandlers := w.connectionHandlers + 1,
                   transcoding := w.transcoding + 1);
      // live-worker.js subscribes to call-ended before it starts the transcoder
      var w2 := if w.variant == Basic then w1 else w1.(callEndedHandlers := w1.callEndedHandlers + 1);
      (w2, received + [OpenSession(data.value.ticket), Post(LogInfo),
                       StartTranscoding(Config(w.variant, data.value.rtspPublishUrl))])
  }

  /** startLiveStream after the transcoder settled. worker.js subscribes to
      call-ended only now, which throws (and is caught) when the session was
      cleared meanwhile. */
  function OnTranscodingSettled(w: Worker, res: TranscodeResult): (r: (Worker, seq<Out>))
    ensures w.transcoding == 0 ==> r == (w, [])
    ensures w.transcoding > 0 && res.TranscodeFailed? ==>
      && r.0 == w.(transcoding := w.transcoding - 1, liveStream := false)
      && r.1 == [Post(LogError), Post(StateMessage(w, "failed"))]
    ensures r.0.altVideoData != w.altVideoData ==> w.variant == AltVideoCapture && res.Started?
    ensures w.transcoding > 0 && res.Started? && w.variant == AltVideoCapture ==>
      r == (w.(transcoding := w.transcoding - 1, altVideoData := res.altVideoData), [Post(LogInfo)])
    ensures w.transcoding > 0 && res.Started? && w.variant == Basic && w.liveStream ==>
      r == (w.(transcoding := w.transcoding - 1, callEndedHandlers := w.callEndedHandlers + 1), [Post(LogInfo)])
    ensures w.transcoding > 0 && res.Started? && w.variant == Basic && !w.liveStream ==>
      r == (w.(transcoding := w.transcoding - 1), [Post(LogInfo), Post(LogError), Post(StateMessage(w, "failed"))])
  {
    if w.transcoding == 0 then (w, [])
    else
      var w1 := w.(transcoding := w.transcoding - 1);
      match res
      case TranscodeFailed =>
        var w' := w1.(liveStream := false);
        (w', [Post(LogError), Post(StateMessage(w', "failed"))])
      case Started(alt) =>
        if w.variant == AltVideoCapture then (w1.(altVideoData := alt), [Post(LogInfo)])
        else if w1.liveStream then (w1.(callEndedHandlers := w1.callEndedHandlers + 1), [Post(LogInfo)])
        else (w1, [Post(LogInfo), Post(LogError), Post(StateMessage(w1, "failed"))])
  }

  /** The onConnectionState subscriber. On `failed` it stops the session and
      starts the settle timer; with no session held, liveStream.stop() throws
      inside the async subscriber, whose promise rejects before the settle
      timer starts. The model takes that rejection to be ignored: the step
      ends there with the worker unchanged. */
  function OnConnectionState(w: Worker, state: string): (r: (Worker, seq<Out>))
    ensures w.connectionHandlers == 0 || (state != "connected" && state != "failed") ==> r == (w, [])
    ensures w.connectionHandlers > 0 && state == "connected" ==>
      r == (w, [Post(StateMessage(w, "active")), Post(LogInfo)])
    ensures w.connectionHandlers > 0 && state == "failed" ==>
      && |r.1| >= 2 && r.1[..2] == [Post(StateMessage(w, "failed")), Post(LogInfo)]
      && (SessionStop in r.1 <==> w.liveStream)
      && r.0 == w.(settling := w.settling + (if w.liveStream then 1 else 0))
  {
    if w.connectionHandlers == 0 then (w, [])
    else if state == "connected" then (w, [Post(StateMessage(w, "active")), Post(LogInfo)])
    else if state == "failed" then
      var posted := [Post(StateMessage(w, "failed")), Post(LogInfo)];
      if w.liveStream then (w.(settling := w.settling + 1), posted + [SessionStop])
      else (w, posted)
    else (w, [])
  }

  /** The onCallEnded subscriber. */
  function OnCallEnded(w: Worker): (r: (Worker, seq<Out>))
    ensures w.callEndedHandlers == 0 ==> r == (w, [])
    ensures w.callEndedHandlers > 0 ==>
      r == (w.(liveStream := false), [Post(LogInfo), Post(StateMessage(w, "inactive"))])
  {
    if w.callEndedHandlers == 0 then (w, [])
    else (w.(liveStream := false), [Post(LogInfo), Post(StateMessage(w, "inactive"))])
  }

  /** The settle delay after a failed connection ran out. */
  function OnSettleElapsed(w: Worker): (r: (Worker, seq<Out>))
    ensures w.settling == 0 ==> r == (w, [])
    ensures w.settling > 0 ==> r == (w.(settling := w.settling - 1, liveStream := false), [])
  {
    if w.settling == 0 then (w, [])
    else (w.(settling := w.settling - 1, liveStream := false), [])
  }

  /** The parentPort message handler with its command switch and catch block. */
  function OnCommand(w: Worker, cmd: Command, env: Env): (r: (Worker, seq<Out>))
    ensures cmd.command == "stop" && !w.liveStream ==> r == (w, [])
    ensures cmd.command != "start" && cmd.command != "stop" ==> r == (w, [Post(LogError)])
  {
    if cmd.command == "start" then HandleStart(w, cmd.streamData, env.sessionOpens)
    else if cmd.command == "stop" then
      if !w.liveStream then (w, [])
      else
        var o := StopLiveStream(w, env.stop);
        if o.threw then (o.worker, o.out + [Post(LogError), Post(StateMessage(o.worker, "failed"))])
        else (o.worker, o.out)
    else (w, [Post(LogError)])
  }

  function Step(w: Worker, e: Event): (Worker, seq<Out>)
  {
    match e
    case Received(cmd, env) => OnCommand(w, cmd, env)
    case TranscodingSettled(res) => OnTranscodingSettled(w, res)
    case ConnectionState(state) => OnConnectionState(w, state)
    case CallEnded => OnCallEnded(w)
    case SettleElapsed => OnSettleElapsed(w)
  }

  function Run(w: Worker, events: seq<Event>): Worker
    decreases |events|
  {
    if |events| == 0 then w else Run(Step(w, events[0]).0, events[1..])
  }

  // ---------------------------------------------------------------------
  // Properties

  /** What every step keeps: nothing assigns isStreamStopping, the variant
      never changes, and the basic worker never records alternate video. */
  ghost predicate Invariant(w: Worker, v: Variant)
  {
    !w.isStreamStopping && w.variant == v && (v == Basic ==> w.altVideoData == None)
  }

  lemma StepKeepsInvariant(w: Worker, v: Variant, e: Event)
    requires Invariant(w, v)
    ensures Invariant(Step(w, e).0, v)
  {
    if e.Received? && e.cmd.command == "stop" && w.liveStream {
      var o := StopLiveStream(w, e.env.stop);
      assert o.worker.isStreamStopping == w.isStreamStopping;
    }
  }

  /** Every worker reachable from a fresh one satisfies the invariant. */
  lemma {:induction false} RunKeepsInvariant(w: Worker, v: Variant, events: seq<Event>)
    requires Invariant(w, v)
    ensures Invariant(Run(w, events), v)
    decreases |events|
  {
    if |events| > 0 {
      StepKeepsInvariant(w, v, events[0]);
      RunKeepsInvariant(Step(w, events[0]).0, v, events[1..]);
    }
  }

  /** The stopping guard is dead: from a fresh worker, a start never reports
      `failed` through it, and a start while a stop is running but a session
      is held reports `active` and opens nothing. */
  lemma StoppingGuardIsDead(v: Variant, events: seq<Event>, env: Env, d: Option<StreamData>)
    ensures var w := Run(Init(v), events);
      !w.isStreamStopping &&
      (w.liveStream ==>
        OnCommand(w, Command("start", d), env) == (w, [Post(LogError), Post(StateMessage(w, "active"))]))
  {
    RunKeepsInvariant(Init(v), v, events);
  }

  /** A start while a session is held creates no new session. */
  lemma StartWhileHeldOpensNothing(w: Worker, d: Option<StreamData>, env: Env)
    requires w.liveStream
    ensures forall t :: OpenSession(t) !in OnCommand(w, Command("start", d), env).1
    ensures OnCommand(w, Command("start", d), env).0 == w
  {
  }

  /** A stop that runs to its end clears `stopping`, whether the session let
      go or the budget ran out with the session still held. */
  lemma StopClearsStopping(w: Worker, env: Env)
    requires !w.stopping && w.liveStream
    ensures var o := StopLiveStream(w, env.stop);
      !o.threw ==> !OnCommand(w, StopCommand, env).0.stopping
    ensures var o := StopLiveStream(w, env.stop);
      o.threw ==> (OnCommand(w, StopCommand, env).0.stopping &&
        OnCommand(w, StopCommand, env).1[|o.out|..] == [Post(LogError), Post(StateMessage(o.worker, "failed"))])
  {
  }

  /** A session that never lets go and never throws is stopped eleven times
      over ten waits and is still held afterwards. */
  lemma StuckSessionStaysHeld(w: Worker)
    requires !w.stopping && w.liveStream
    ensures var o := StopLiveStream(w, StopEnv(map[], None));
      o.worker.liveStream && !o.worker.stopping && o.calls == 11 && o.waits == 10
  {
    var o := StopLiveStream(w, StopEnv(map[], None));
    NeverClearedNeverThrows(w.(stopping := true), StopBudget, 0, 1);
  }

  lemma {:induction false} NeverClearedNeverThrows(w: Worker, budget: nat, waits: nat, calls: nat)
    requires w.liveStream
    ensures var o := StopRounds(w, StopEnv(map[], None), budget, waits, calls);
      !o.threw && o.worker.liveStream
    decreases budget
  {
    if budget > 0 {
      NeverClearedNeverThrows(w, budget - 1, waits + 1, calls + 1);
    }
  }

  /** A stop command without a session is a no-op. */
  lemma StopWithoutSession(w: Worker, env: Env)
    requires !w.liveStream
    ensures OnCommand(w, StopCommand, env) == (w, [])
  {
  }

  /** A failed connection followed by the settle delay leaves no session, so
      the next start is accepted and opens a new one. */
  lemma FailureThenSettleAcceptsStart(w: Worker, d: StreamData, env: Env)
    requires w.connectionHandlers > 0 && w.liveStream && w.settling == 0 && !w.isStreamStopping
    requires env.sessionOpens
    ensures var w1 := Step(w, ConnectionState("failed"));
            var w2 := Step(w1.0, SettleElapsed);
            var w3 := Step(w2.0, Received(StartCommand(d), env));
            && Post(StateMessage(w, "failed")) in w1.1
            && !w2.0.liveStream
            && OpenSession(d.ticket) in w3.1
  {
    var w1 := Step(w, ConnectionState("failed"));
    assert w1.1[0] == Post(StateMessage(w, "failed"));
  }

  /** In live-worker.js the connection and call-ended handlers are in place
      before the transcoder starts, so a transcoder failure leaves them
      subscribed and a later call-ended still reports `inactive`. worker.js
      subscribes to call-ended only after the transcoder started. */
  lemma HandlersSurviveTranscoderFailure(w: Worker, d: StreamData, env: Env)
    requires !w.liveStream && !w.isStreamStopping && env.sessionOpens
    ensures var s1 := Step(w, Received(StartCommand(d), env)).0;
            var s2 := Step(s1, TranscodingSettled(TranscodeFailed)).0;
            && s2.connectionHandlers > 0
            && (w.variant == AltVideoCapture ==>
                  s2.callEndedHandlers > 0 && Post(StateMessage(s2, "inactive")) in Step(s2, CallEnded).1)
            && (w.variant == Basic ==> s2.callEndedHandlers == w.callEndedHandlers)
  {
    var s1 := Step(w, Received(StartCommand(d), env)).0;
    var s2 := Step(s1, TranscodingSettled(TranscodeFailed)).0;
    if w.variant == AltVideoCapture {
      assert Step(s2, CallEnded).1[1] == Post(StateMessage(s2, "inactive"));
    }
  }

  /** altVideoData changes only when the transcoder of live-worker.js starts. */
  lemma AltVideoChangesOnlyOnTranscoderStart(w: Worker, e: Event)
    ensures Step(w, e).0.altVideoData != w.altVideoData ==>
      w.variant == AltVideoCapture && e.TranscodingSettled? && e.result.Started?
  {
    if e.Received? && e.cmd.command == "stop" && w.liveStream {
      var o := StopLiveStream(w, e.env.stop);
      assert o.worker.altVideoData == w.altVideoData;
    }
  }

  /** A failed start of live-worker.js keeps the last altVideoData. */
  lemma FailedStartKeepsAltVideo(w: Worker, d: Option<StreamData>, env: Env)
    ensures Step(w, Received(Command("start", d), env)).0.altVideoData == w.altVideoData
    ensures Step(w, TranscodingSettled(TranscodeFailed)).0.altVideoData == w.altVideoData
  {
  }

  /** Every state message carries the current altVideoData in live-worker.js
      and no such field in worker.js. */
  lemma StateMessagesCarryAltVideo(w: Worker, e: Event)
    ensures forall m :: Post(m) in Step(w, e).1 && m.State? ==>
      m.altVideoData == (if w.variant == Basic then NoField else Field(w.altVideoData))
  {
    match e
    case Received(cmd, env) =>
      if cmd.command == "stop" && w.liveStream {
        StopPostsCarryAltVideo(w, env.stop);
      }
    case TranscodingSettled(_) =>
    case ConnectionState(_) =>
    case CallEnded =>
    case SettleElapsed =>
  }

  lemma StopPostsCarryAltVideo(w: Worker, env: StopEnv)
    ensures forall m :: Post(m) in StopLiveStream(w, env).out && m.State? ==>
      m.altVideoData == (if w.variant == Basic then NoField else Field(w.altVideoData))
  {
    if !w.stopping && w.liveStream && env.throwsOnCall != Some(0) {
      RoundsPostsCarryAltVideo(w.(stopping := true), env, StopBudget, 0, 1);
    }
  }

  lemma {:induction false} RoundsPostsCarryAltVideo(w: Worker, env: StopEnv, budget: nat, waits: nat, calls: nat)
    ensures forall m :: Post(m) in StopRounds(w, env, budget, waits, calls).out && m.State? ==>
      m.altVideoData == (if w.variant == Basic then NoField else Field(w.altVideoData))
    decreases budget
  {
    if w.liveStream && budget > 0 {
      InterleaveFrame(w, env, waits);
      var w1 := AfterWait(w, env, waits).0;
      if w1.liveStream && env.throwsOnCall != Some(calls) {
        RoundsPostsCarryAltVideo(w1, env, budget - 1, waits + 1, calls + 1);
      }
    }
  }

  /** The two variants hand the transcoder the same audio and video options
      and both publish to the URL over TCP with the same muxer tail. They
      differ in their input timing options and in one output option each:
      live-worker.js starts the output 0.2 s in, worker.js writes it with
      direct I/O. */
  lemma VariantsShareCodecs(url: string)
    ensures Config(Basic, url).audio == Config(AltVideoCapture, url).audio
    ensures Config(Basic, url).video == Config(AltVideoCapture, url).video
    ensures Config(Basic, url).input != Config(AltVideoCapture, url).input
    ensures PublishesTo(Config(Basic, url).output, url) && PublishesTo(Config(AltVideoCapture, url).output, url)
    ensures Config(Basic, url).output[4..] == Config(AltVideoCapture, url).output[4..]
    ensures HasOption(Config(AltVideoCapture, url).output, "-ss", "0.2")
    ensures !HasOption(Config(Basic, url).output, "-ss", "0.2")
    ensures HasOption(Config(Basic, url).output, "-avioflags", "direct")
    ensures !HasOption(Config(AltVideoCapture, url).output, "-avioflags", "direct")
  {
    OutputHeadsDiffer(url);
    OutputHeadsExclusive(url);
  }

  lemma OutputHeadsDiffer(url: string)
    ensures HasOption(Config(AltVideoCapture, url).output, "-ss", "0.2")
    ensures HasOption(Config(Basic, url).output, "-avioflags", "direct")
  {
    var b := Config(Basic, url).output;
    var a := Config(AltVideoCapture, url).output;
    assert a[0] == "-ss" && a[1] == "0.2";
    assert b[2] == "-avioflags" && b[3] == "direct";
  }

  lemma OutputHeadsExclusive(url: string)
    ensures !HasOption(Config(Basic, url).output, "-ss", "0.2")
    ensures !HasOption(Config(AltVideoCapture, url).output, "-avioflags", "direct")
  {
    var b := Config(Basic, url).output;
    var a := Config(AltVideoCapture, url).output;
    assert b == ["-flags", "+global_header", "-avioflags", "direct", "-f", "rtsp", "-rtsp_transport", "tcp", url];
    assert a == ["-ss", "0.2", "-flags", "+global_header", "-f", "rtsp", "-rtsp_transport", "tcp", url];
  }
}

=== FILE: protocol.dfy ===
/** The messages exchanged between the live-stream controller and its worker thread. */
module Protocol {
  import opened Common

  /** The alternate-video description a streaming session returns when its
      transcoder starts: a local port and the session description to read it. */
  datatype AltVideo = AltVideo(port: int, sdp: string)

  /** What the controller hands the worker to start a session. */
  datatype StreamData = StreamData(rtspPublishUrl: string, ticket: string)

  /** Controller to worker: `{ command, streamData }`. */
  datatype Command = Command(command: string, streamData: Option<StreamData>)

  function StartCommand(d: StreamData): Command
  {
    Command("start", Some(d))
  }

  const StopCommand := Command("stop", None)

  /** The `altVideoData` field of a state message: left out, or present with a
      value that may be null. */
  datatype AltField = NoField | Field(value: Option<AltVideo>)

  /** Worker to controller: `{ type: 'state', data, altVideoData? }` or a log
      line (whose text the model leaves out). */
  datatype Message = State(data: string, altVideoData: AltField) | LogInfo | LogError
}

=== FILE: shutdown.dfy ===
/** The graceful-then-forced shutdown the snapshot engine applies to its
    RTSP stage once `stop` has ended that stage's input: a 'finish' listener
    that kills the process races a 2000 ms timer that kills it with SIGKILL. */
module Shutdown {

  datatype Signal = SigTerm | SigKill

  /** Which of the two racers have fired. */
  datatype Drain = Drain(finished: bool, timedOut: bool)

  const Begin := Drain(false, false)

  datatype DrainEvent =
    | Finish   // the input stream's 'finish' event
    | Timeout  // the 2000 ms timer

  /** One racer fires. The 'finish' listener is registered once and kills
      whenever it runs, even after the timer won; the timer's rejection only
      reaches the catch block (and SIGKILL) while the race is unsettled. */
  function DrainStep(d: Drain, e: DrainEvent): (r: (Drain, seq<Signal>))
    ensures e == Finish ==> r.0.finished && r.0.timedOut == d.timedOut
    ensures e == Timeout ==> r.0.timedOut && r.0.finished == d.finished
    ensures SigKill in r.1 <==> e == Timeout && !d.finished && !d.timedOut
    ensures SigTerm in r.1 <==> e == Finish && !d.finished
    ensures |r.1| <= 1
  {
    match e
    case Finish =>
      if d.finished then (d, []) else (d.(finished := true), [SigTerm])
    case Timeout =>
      if d.timedOut || d.finished then (d.(timedOut := true), [])
      else (d.(timedOut := true), [SigKill])
  }

  /** The signals a sequence of racer events sends. */
  function Drive(d: Drain, events: seq<DrainEvent>): (Drain, seq<Signal>)
    decreases |events|
  {
    if |events| == 0 then (d, [])
    else
      var (d1, s1) := DrainStep(d, events[0]);
      var (d2, s2) := Drive(d1, events[1..]);
      (d2, s1 + s2)
  }

  /** Once either racer has fired, no SIGKILL can follow unless the timer is
      still to fire and 'finish' has not come. */
  lemma {:induction false} NoLateSigKill(d: Drain, events: seq<DrainEvent>)
    requires d.finished
    ensures SigKill !in Drive(d, events).1
    decreases |events|
  {
    if |events| > 0 {
      NoLateSigKill(DrainStep(d, events[0]).0, events[1..]);
    }
  }

  lemma {:induction false} NoSecondSigKill(d: Drain, events: seq<DrainEvent>)
    requires d.timedOut
    ensures SigKill !in Drive(d, events).1
    decreases |events|
  {
    if |events| > 0 {
      NoSecondSigKill(DrainStep(d, events[0]).0, events[1..]);
    }
  }

  /** The process gets SIGKILL exactly when the timer fires before 'finish',
      and some kill as soon as either racer fires. */
  lemma RaceOutcome(events: seq<DrainEvent>)
    ensures SigKill in Drive(Begin, events).1 <==> |events| > 0 && events[0] == Timeout
    ensures |events| > 0 ==> |Drive(Begin, events).1| > 0
  {
    if |events| > 0 {
      var (d1, s1) := DrainStep(Begin, events[0]);
      if events[0] == Finish {
        NoLateSigKill(d1, events[1..]);
      } else {
        NoSecondSigKill(d1, events[1..]);
      }
      assert Drive(Begin, events).1 == s1 + Drive(d1, events[1..]).1;
      assert s1[0] in s1;
    }
  }
}

=== FILE: snapshot_stream.dfy ===
/** The SnapshotStream engine: it turns the camera's latest snapshot image
    into a video stream. An RTSP stage publishes what its input receives; an
    encoder stage turns images written every 50 ms into that input; on demand
    a "livesnaps" stage, fed by the live stream's alternate video, temporarily
    takes the encoder's place at the RTSP stage's input. */
module SnapshotStream {
  import opened Common
  import opened Args
  import Shutdown

  /** The transcoder processes the engine runs. */
  datatype Stage =
    | Rtsp       // publishes its input to the RTSP server
    | Encoder    // turns snapshot images into video
    | Keepalive  // reads the live stream so that it keeps running
    | Livesnaps  // turns the live stream's alternate video into video

  /** The `{active, session}` pair kept for the keepalive and livesnaps
      stages; `session` says a process handle is held. */
  datatype Flags = Flags(active: bool, session: bool)

  datatype Engine = Engine(
    status: Status,
    interval: bool,        // `this.interval` holds a running 50 ms image timer
    leaked: nat,           // running image timers no handle refers to any more
    rtsp: bool,            // the RTSP stage's handle is held
    rtspSpawning: nat,     // RTSP stages spawned whose 'spawn' event is still to come
    leakedRtsp: nat,       // running RTSP stages whose handle a later start overwrote
    encoder: bool,         // the encoder stage's handle is held
    encoderSpawning: nat,  // encoder stages spawned whose 'spawn' event is still to come
    leakedEncoders: nat,   // running encoder stages whose handle a later spawn overwrote
    unsettled: nat,        // starts whose promise is neither resolved nor rejected
    livesnaps: Flags,
    keepalive: Flags,
    feeders: set<Stage>)   // stages whose output is piped into the RTSP stage

  const Init := Engine(Inactive, false, 0, false, 0, 0, false, 0, 0, 0, Flags(false, false), Flags(false, false), {})

  /** Some image timer is running. */
  predicate Ticking(s: Engine)
  {
    s.interval || s.leaked > 0
  }

  datatype Action =
    | Publish                          // publishStreamState()
    | Spawn(stage: Stage, args: seq<string>)
    | Kill(stage: Stage)               // kill() with the default signal
    | EndInput(stage: Stage)           // stdin.end(); for the RTSP stage this starts the race in Shutdown
    | WriteImage                       // the snapshot image goes to the encoder's input
    | WriteSdp                         // the alternate video's SDP goes to the livesnaps input
    | Pipe(from: Stage)                // `from`'s output is piped into the RTSP stage
    | Unpipe(from: Stage)
    | StartInterval
    | ClearInterval
    | UnbindAltVideoPorts              // asks the live stream to release its alternate video ports
    | RefreshSnapshot                  // asks the camera for a new snapshot

  /** Process events and timer callbacks, one per atomic step. A process's
      'spawn' event comes only after that process was spawned. Each start
      has its own promise, settled by its RTSP stage's 'error' or by its
      encoder's 'spawn'; `ownUnsettled` says whether the start that spawned
      the reporting stage has not settled yet, and counts only while some
      start is unsettled. */
  datatype Event =
    | Start(rtspPublishUrl: string, imageAvailable: bool, spawnThrows: bool)
    | RtspSpawned
    | RtspError(ownUnsettled: bool)
    | RtspClosed
    | EncoderSpawned(ownUnsettled: bool)
    | EncoderFirstData
    | Tick(writeThrows: bool)                 // the 50 ms timer fired
    | Stop
    | StartLivesnaps(rtspCredentials: string, deviceId: string)
    | KeepaliveSpawned(altVideoAppearsAt: Option<nat>)  // ms after the spawn, if ever
    | LivesnapsSpawned
    | LivesnapsFirstData
    | LivesnapsClosed
    | LivesnapsWindowOver                     // the livesnaps window has passed
    | KeepaliveClosed

  // ---------------------------------------------------------------------
  // The stages' argument lists

  /** The scaling filter both video-producing stages apply. */
  const Scale := "scale=1280:720:force_original_aspect_ratio=decrease,pad=1280:720:(ow-iw)/2:(oh-ih)/2"

  function RtspArgs(url: string): seq<string>
  {
    [ "-f", "mpegts", "-probesize", "32k", "-analyzeduration", "0",
      "-i", "pipe:", "-ss", ".2", "-c:v", "copy", "-avioflags", "direct",
      "-f", "rtsp", "-rtsp_transport", "tcp", url ]
  }

  const EncoderArgs: seq<string> :=
    [ "-hide_banner", "-f", "image2pipe", "-probesize", "32k", "-analyzeduration", "0",
      "-i", "pipe:", "-vf", Scale, "-sws_flags", "lanczos", "-c:v", "libx264",
      "-b:v", "6M", "-r", "5", "-g", "1", "-preset", "ultrafast", "-tune", "zerolatency",
      "-avioflags", "direct", "-f", "mpegts", "pipe:1" ]

  function LiveUrl(rtspCredentials: string, deviceId: string): string
  {
    "rtsp://" + rtspCredentials + "localhost:8554/" + deviceId + "_live"
  }

  function KeepaliveArgs(rtspCredentials: string, deviceId: string): seq<string>
  {
    [ "-i", LiveUrl(rtspCredentials, deviceId), "-map", "0:a:0", "-c:a", "copy",
      "-f", "null", "/dev/null" ]
  }

  const LivesnapsArgs: seq<string> :=
    [ "-hide_banner", "-protocol_whitelist", "pipe,udp,rtp,fd,file,crypto",
      "-fflags", "nobuffer", "-flags", "low_delay", "-use_wallclock_as_timestamps", "1",
      "-itsoffset", "-0.2", "-probesize", "32K", "-analyzeduration", "0",
      "-f", "sdp", "-i", "pipe:", "-vf", Scale, "-sws_flags", "lanczos",
      "-c:v", "libx264", "-b:v", "6M", "-preset", "ultrafast", "-tune", "zerolatency",
      "-r", "5", "-g", "1", "-avioflags", "direct", "-f", "mpegts", "pipe:1" ]

  /** The list ends by writing MPEG-TS to standard output. */
  predicate WritesMpegtsToStdout(args: seq<string>)
  {
    |args| >= 3 && args[|args| - 3..] == ["-f", "mpegts", "pipe:1"]
  }

  /** The RTSP stage reads MPEG-TS from its input, copies the video and
      publishes to the URL. */
  lemma RtspStageFormat(url: string)
    ensures RtspArgs(url)[..2] == ["-f", "mpegts"]
    ensures HasOption(RtspArgs(url), "-i", "pipe:")
    ensures HasOption(RtspArgs(url), "-c:v", "copy")
    ensures PublishesTo(RtspArgs(url), url)
  {
    var a := RtspArgs(url);
    assert a[6] == "-i" && a[7] == "pipe:";
    assert a[10] == "-c:v" && a[11] == "copy";
    assert a[14] == "-f" && a[15] == "rtsp";
    assert a[16] == "-rtsp_transport" && a[17] == "tcp";
  }

  /** The encoder reads images from its input and writes H.264 in MPEG-TS. */
  lemma EncoderStageFormat()
    ensures HasOption(EncoderArgs, "-f", "image2pipe")
    ensures HasOption(EncoderArgs, "-i", "pipe:")
    ensures HasOption(EncoderArgs, "-vf", Scale)
    ensures HasOption(EncoderArgs, "-c:v", "libx264")
    ensures WritesMpegtsToStdout(EncoderArgs)
  {
    var a := EncoderArgs;
    assert a[1] == "-f" && a[2] == "image2pipe";
    assert a[7] == "-i" && a[8] == "pipe:";
    assert a[9] == "-vf" && a[10] == Scale;
    assert a[13] == "-c:v" && a[14] == "libx264";
  }

  /** The livesnaps stage reads an SDP description from its input and writes
      the same video format as the encoder, so either can feed the RTSP stage. */
  lemma LivesnapsStageFormat()
    ensures HasOption(LivesnapsArgs, "-f", "sdp")
    ensures HasOption(LivesnapsArgs, "-i", "pipe:")
    ensures HasOption(LivesnapsArgs, "-vf", Scale)
    ensures HasOption(LivesnapsArgs, "-c:v", "libx264")
    ensures WritesMpegtsToStdout(LivesnapsArgs)
  {
    var a := LivesnapsArgs;
    assert a[15] == "-f" && a[16] == "sdp";
    assert a[17] == "-i" && a[18] == "pipe:";
    assert a[19] == "-vf" && a[20] == Scale;
    assert a[23] == "-c:v" && a[24] == "libx264";
  }

  /** The keepalive stage reads the camera's live path on the local RTSP
      server and discards it. */
  lemma KeepaliveStageFormat(rtspCredentials: string, deviceId: string)
    ensures HasOption(KeepaliveArgs(rtspCredentials, deviceId), "-i", LiveUrl(rtspCredentials, deviceId))
    ensures KeepaliveArgs(rtspCredentials, deviceId)[|KeepaliveArgs(rtspCredentials, deviceId)| - 1] == "/dev/null"
  {
    var a := KeepaliveArgs(rtspCredentials, deviceId);
    assert a[0] == "-i" && a[1] == LiveUrl(rtspCredentials, deviceId);
  }

  // ---------------------------------------------------------------------
  // Waiting for the live stream's alternate video

  const AltVideoDeadlineMs: nat := 5000
  const PollMs: nat := 50

  datatype WaitResult = WaitResult(found: bool, polls: nat)

  /** The poll loop from `now` on: it sleeps 50 ms while the alternate video
      is absent and the deadline has not passed, then looks once more. */
  function AltVideoPoll(appearsAt: Option<nat>, now: nat): (r: WaitResult)
    requires now <= AltVideoDeadlineMs && now % PollMs == 0
    ensures r.found <==> appearsAt.Some? && appearsAt.value <= AltVideoDeadlineMs
    ensures now + r.polls * PollMs <= AltVideoDeadlineMs
    ensures r.found ==> appearsAt.value <= now + r.polls * PollMs
    ensures r.polls > 0 ==> !(appearsAt.Some? && appearsAt.value <= now + (r.polls - 1) * PollMs)
    decreases AltVideoDeadlineMs - now
  {
    var present := appearsAt.Some? && appearsAt.value <= now;
    if present || now == AltVideoDeadlineMs then WaitResult(present, 0)
    else
      var rest := AltVideoPoll(appearsAt, now + PollMs);
      WaitResult(rest.found, rest.polls + 1)
  }

  /** The bounded wait: the alternate video is found exactly when it appears
      within 5000 ms, after at most 100 sleeps, and no later than the first
      poll that can see it. */
  function WaitForAltVideo(appearsAt: Option<nat>): (r: WaitResult)
    ensures r.found <==> appearsAt.Some? && appearsAt.value <= AltVideoDeadlineMs
    ensures r.polls <= AltVideoDeadlineMs / PollMs
    ensures r.found ==> appearsAt.value <= r.polls * PollMs < appearsAt.value + PollMs
  {
    AltVideoPoll(appearsAt, 0)
  }

  // ---------------------------------------------------------------------
  // Handlers

  /** `start`: without an image, or when the RTSP stage cannot be spawned,
      the stream fails at once; otherwise the RTSP stage is spawned and the
      start waits for the encoder. The new handle overwrites a held one
      without ending or killing its process. */
  function OnStart(s: Engine, url: string, imageAvailable: bool, spawnThrows: bool): (r: (Engine, seq<Action>))
    ensures !imageAvailable || spawnThrows ==> r == (s.(status := Failed), [Publish])
    ensures imageAvailable && !spawnThrows ==>
      && r.0 == s.(rtsp := true, rtspSpawning := s.rtspSpawning + 1, unsettled := s.unsettled + 1,
                   leakedRtsp := s.leakedRtsp + (if s.rtsp then 1 else 0))
      && r.1 == [Spawn(Rtsp, RtspArgs(url))]
  {
    if !imageAvailable then (s.(status := Failed), [Publish])
    else if spawnThrows then (s.(status := Failed), [Publish])
    else
      var leakedRtsp := if s.rtsp then s.leakedRtsp + 1 else s.leakedRtsp;
      (s.(rtsp := true, rtspSpawning := s.rtspSpawning + 1, unsettled := s.unsettled + 1, leakedRtsp := leakedRtsp),
       [Spawn(Rtsp, RtspArgs(url))])
  }

  /** `stop`: the timer the handle refers to is cleared and the inactive
      status published every time; timers no handle refers to keep running;
      the RTSP stage, when held, is released and its input ended. */
  function OnStop(s: Engine): (r: (Engine, seq<Action>))
    ensures r.0.status == Inactive && !r.0.interval && !r.0.rtsp
    ensures r.0 == s.(status := Inactive, interval := false, rtsp := false)
    ensures Publish in r.1 && ClearInterval in r.1
    ensures EndInput(Rtsp) in r.1 <==> s.rtsp
    ensures forall a :: a in r.1 ==> !a.Kill? && !a.Spawn?
  {
    var s1 := s.(interval := false, status := Inactive);
    if !s.rtsp then (s1, [ClearInterval, Publish])
    else (s1.(rtsp := false), [ClearInterval, Publish, EndInput(Rtsp)])
  }

  /** A 50 ms timer, any of those running: it writes the image while the
      stream is active and stops the stream when it is not, or when the write
      throws (as it does when no encoder handle is held). */
  function OnTick(s: Engine, writeThrows: bool): (r: (Engine, seq<Action>))
    ensures !Ticking(s) ==> r == (s, [])
    ensures Ticking(s) && s.status == Active && s.encoder && !writeThrows ==> r == (s, [WriteImage])
    ensures Ticking(s) && !(s.status == Active && s.encoder && !writeThrows) ==> r == OnStop(s)
  {
    if !Ticking(s) then (s, [])
    else if s.status == Active then
      if s.encoder && !writeThrows then (s, [WriteImage]) else OnStop(s)
    else OnStop(s)
  }

  /** `startLivesnaps`: ignored while a live snapshot run is marked active;
      otherwise marks one and spawns the keepalive stage. */
  function OnStartLivesnaps(s: Engine, rtspCredentials: string, deviceId: string): (r: (Engine, seq<Action>))
    ensures s.livesnaps.active ==> r == (s, [])
    ensures !s.livesnaps.active ==>
      && r.0 == s.(livesnaps := s.livesnaps.(active := true), keepalive := s.keepalive.(session := true))
      && r.1 == [Spawn(Keepalive, KeepaliveArgs(rtspCredentials, deviceId))]
  {
    if s.livesnaps.active then (s, [])
    else
      (s.(livesnaps := s.livesnaps.(active := true), keepalive := s.keepalive.(session := true)),
       [Spawn(Keepalive, KeepaliveArgs(rtspCredentials, deviceId))])
  }

  /** The end of the keepalive stage's spawn handler: whichever handles are
      held are killed; no flag is reset. */
  function KillLivesnapsStages(s: Engine): (r: (Engine, seq<Action>))
    ensures r.0 == s
    ensures Kill(Livesnaps) in r.1 <==> s.livesnaps.session
    ensures Kill(Keepalive) in r.1 <==> s.keepalive.session
    ensures forall a :: a in r.1 ==> a.Kill?
  {
    (s, (if s.livesnaps.session then [Kill(Livesnaps)] else [])
      + (if s.keepalive.session then [Kill(Keepalive)] else []))
  }

  /** The keepalive stage's spawn handler up to the livesnaps window: once
      the alternate video appears within the deadline the livesnaps stage is
      spawned; otherwise the run is abandoned at once. */
  function OnKeepaliveSpawned(s: Engine, appearsAt: Option<nat>): (r: (Engine, seq<Action>))
    ensures r.0.keepalive.active
    ensures r.0.livesnaps.active == s.livesnaps.active
    ensures (appearsAt.Some? && appearsAt.value <= AltVideoDeadlineMs) ==>
      r.0.livesnaps.session && r.1 == [Spawn(Livesnaps, LivesnapsArgs)]
    ensures !(appearsAt.Some? && appearsAt.value <= AltVideoDeadlineMs) ==>
      r == KillLivesnapsStages(s.(keepalive := s.keepalive.(active := true)))
  {
    var s1 := s.(keepalive := s.keepalive.(active := true));
    if WaitForAltVideo(appearsAt).found then
      (s1.(livesnaps := s1.livesnaps.(session := true)), [Spawn(Livesnaps, LivesnapsArgs)])
    else KillLivesnapsStages(s1)
  }

  /** The livesnaps stage's close handler: a snapshot refresh, the livesnaps
      stage unpiped, the encoder piped back, and the livesnaps flags reset.
      Piping the encoder back dereferences both the encoder's and the RTSP
      stage's handle; when either is missing the handler throws there, its
      promise rejects, and the flags are never reset. */
  function OnLivesnapsClosed(s: Engine): (r: (Engine, seq<Action>))
    ensures s.encoder && s.rtsp ==>
      r == (s.(livesnaps := Flags(false, false), feeders := s.feeders - {Livesnaps} + {Encoder}),
            [RefreshSnapshot, Unpipe(Livesnaps), Pipe(Encoder)])
    ensures !(s.encoder && s.rtsp) ==>
      r == (s.(feeders := s.feeders - {Livesnaps}), [RefreshSnapshot, Unpipe(Livesnaps)])
  {
    var unpiped := s.(feeders := s.feeders - {Livesnaps});
    if s.encoder && s.rtsp then
      (unpiped.(livesnaps := Flags(false, false), feeders := unpiped.feeders + {Encoder}),
       [RefreshSnapshot, Unpipe(Livesnaps), Pipe(Encoder)])
    else (unpiped, [RefreshSnapshot, Unpipe(Livesnaps)])
  }

  /** The encoder's spawn handler: a new image timer whose handle replaces
      the previous one, which keeps running; the stream turns active. */
  function OnEncoderSpawned(s: Engine): (r: (Engine, seq<Action>))
    ensures r.0.interval && r.0.status == Active
    ensures r.0.leaked == s.leaked + (if s.interval then 1 else 0)
    ensures r.0 == s.(interval := true, leaked := r.0.leaked, status := Active)
    ensures r.1 == [StartInterval, Publish]
  {
    var leaked := if s.interval then s.leaked + 1 else s.leaked;
    (s.(interval := true, leaked := leaked, status := Active), [StartInterval, Publish])
  }

  /** The count of unsettled starts after an event that settles the
      reporting stage's start, if that start had not settled yet. */
  function Settle(unsettled: nat, ownUnsettled: bool): nat
  {
    if ownUnsettled && unsettled > 0 then unsettled - 1 else unsettled
  }

  function Step(s: Engine, e: Event): (Engine, seq<Action>)
  {
    match e
    case Start(url, image, throws) => OnStart(s, url, image, throws)
    case RtspSpawned =>
      if s.rtspSpawning == 0 then (s, [])
      else
        (s.(rtspSpawning := s.rtspSpawning - 1, encoder := true, encoderSpawning := s.encoderSpawning + 1,
            leakedEncoders := s.leakedEncoders + (if s.encoder then 1 else 0)),
         [Spawn(Encoder, EncoderArgs)])
    case RtspError(own) =>
      if own && s.unsettled > 0 then (s.(status := Failed, unsettled := s.unsettled - 1), [Publish]) else (s, [])
    case RtspClosed => OnStop(s)
    case EncoderSpawned(own) =>
      if s.encoderSpawning == 0 then (s, [])
      else OnEncoderSpawned(s.(encoderSpawning := s.encoderSpawning - 1, unsettled := Settle(s.unsettled, own)))
    case EncoderFirstData => (s.(feeders := s.feeders + {Encoder}), [Pipe(Encoder)])
    case Tick(writeThrows) => OnTick(s, writeThrows)
    case Stop => OnStop(s)
    case StartLivesnaps(creds, id) => OnStartLivesnaps(s, creds, id)
    case KeepaliveSpawned(appearsAt) => OnKeepaliveSpawned(s, appearsAt)
    case LivesnapsSpawned => (s, [UnbindAltVideoPorts, WriteSdp, EndInput(Livesnaps)])
    case LivesnapsFirstData =>
      (s.(feeders := s.feeders - {Encoder} + {Livesnaps}), [Unpipe(Encoder), Pipe(Livesnaps)])
    case LivesnapsClosed => OnLivesnapsClosed(s)
    case LivesnapsWindowOver => KillLivesnapsStages(s)
    case KeepaliveClosed => (s.(keepalive := Flags(false, false)), [])
  }

  /** The state after a sequence of events, with every action taken. */
  function Run(s: Engine, events: seq<Event>): (Engine, seq<Action>)
    decreases |events|
  {
    if |events| == 0 then (s, [])
    else
      var (s1, a1) := Step(s, events[0]);
      var (s2, a2) := Run(s1, events[1..]);
      (s2, a1 + a2)
  }

  // ---------------------------------------------------------------------
  // Properties

  /** One step of a run. */
  lemma RunCons(s: Engine, events: seq<Event>)
    requires |events| > 0
    ensures Run(s, events).0 == Run(Step(s, events[0]).0, events[1..]).0
    ensures Run(s, events).1 == Step(s, events[0]).1 + Run(Step(s, events[0]).0, events[1..]).1
    ensures |events| == 1 ==> Run(s, events) == Step(s, events[0])
  {
    if |events| == 1 {
      assert Run(Step(s, events[0]).0, events[1..]) == (Step(s, events[0]).0, []);
      assert Step(s, events[0]).1 + [] == Step(s, events[0]).1;
    }
  }

  /** Without a snapshot image nothing is spawned and the failure is published. */
  lemma NoImageSpawnsNothing(s: Engine, url: string, throws: bool)
    ensures Step(s, Start(url, false, throws)) == (s.(status := Failed), [Publish])
  {
  }

  /** Only the spawn of an encoder that was spawned makes the stream active,
      and it always does. */
  lemma ActiveOnlyOnEncoderSpawn(s: Engine, e: Event)
    requires s.status != Active
    ensures Step(s, e).0.status == Active <==> e.EncoderSpawned? && s.encoderSpawning > 0
  {
  }

  /** The encoder is spawned exactly when a spawned RTSP stage reports its
      spawn. */
  lemma EncoderSpawnIff(s: Engine, e: Event)
    ensures (exists a :: a in Step(s, e).1 && a.Spawn? && a.stage == Encoder) <==>
      e == RtspSpawned && s.rtspSpawning > 0
  {
    if e == RtspSpawned && s.rtspSpawning > 0 {
      assert Step(s, e).1[0] in Step(s, e).1;
    }
  }

  /** An RTSP error rejects its own start's promise: while that start is
      unsettled the stream fails and publishes, however many other starts
      have settled meanwhile; a settled start ignores it. */
  lemma RtspErrorFailsPendingStart(s: Engine, own: bool)
    ensures own && s.unsettled > 0 ==>
      Step(s, RtspError(own)) == (s.(status := Failed, unsettled := s.unsettled - 1), [Publish])
    ensures !(own && s.unsettled > 0) ==> Step(s, RtspError(own)) == (s, [])
  {
  }

  /** Whether an event opens a start promise, and whether it settles one. */
  predicate OpensStart(e: Event)
  {
    e.Start? && e.imageAvailable && !e.spawnThrows
  }

  predicate SettlesStart(s: Engine, e: Event)
  {
    && s.unsettled > 0
    && ((e.RtspError? && e.ownUnsettled) || (e.EncoderSpawned? && e.ownUnsettled && s.encoderSpawning > 0))
  }

  /** A start that spawns its RTSP stage opens one promise, an RTSP error or
      encoder spawn for an unsettled start settles one, and nothing else
      changes the count. */
  lemma UnsettledStep(s: Engine, e: Event)
    ensures Step(s, e).0.unsettled + (if SettlesStart(s, e) then 1 else 0)
         == s.unsettled + (if OpensStart(e) then 1 else 0)
  {
    match e
    case Start(_, _, _) =>
    case RtspSpawned =>
    case RtspError(_) =>
    case RtspClosed =>
    case EncoderSpawned(_) =>
    case EncoderFirstData =>
    case Tick(_) =>
    case Stop =>
    case StartLivesnaps(_, _) =>
    case KeepaliveSpawned(_) =>
    case LivesnapsSpawned =>
    case LivesnapsFirstData =>
    case LivesnapsClosed =>
    case LivesnapsWindowOver =>
    case KeepaliveClosed =>
  }

  /** The number of starts in a sequence of events that open a promise. */
  function StartsOpened(events: seq<Event>): nat
  {
    if |events| == 0 then 0
    else (if OpensStart(events[0]) then 1 else 0) + StartsOpened(events[1..])
  }

  /** No more starts are unsettled than were opened. */
  lemma {:induction false} RunBoundsUnsettled(s: Engine, events: seq<Event>)
    ensures Run(s, events).0.unsettled <= s.unsettled + StartsOpened(events)
    decreases |events|
  {
    if |events| > 0 {
      UnsettledStep(s, events[0]);
      RunCons(s, events);
      RunBoundsUnsettled(Step(s, events[0]).0, events[1..]);
    }
  }

  /** Overlapping starts settle separately: after a second start, the first
      start's encoder spawn turns the stream active, and the second start's
      RTSP error still fails it. */
  lemma OverlappingStartsFailSeparately(url: string)
    ensures var r := Run(Init, [Start(url, true, false), Start(url, true, false), RtspSpawned, EncoderSpawned(true)]);
      && r.0.status == Active && r.0.unsettled == 1
      && Step(r.0, RtspError(true)) == (r.0.(status := Failed, unsettled := 0), [Publish])
  {
    var es := [Start(url, true, false), Start(url, true, false), RtspSpawned, EncoderSpawned(true)];
    var s1 := OnStart(Init, url, true, false).0;
    var s2 := OnStart(s1, url, true, false).0;
    var s3 := Step(s2, RtspSpawned).0;
    assert s2.unsettled == 2 && s2.rtspSpawning == 2;
    assert s3.unsettled == 2 && s3.encoderSpawning == 1;
    RunCons(Init, es);
    assert es[1..] == [Start(url, true, false), RtspSpawned, EncoderSpawned(true)];
    RunCons(s1, es[1..]);
    assert es[1..][1..] == [RtspSpawned, EncoderSpawned(true)];
    RunCons(s2, es[1..][1..]);
    assert es[1..][1..][1..] == [EncoderSpawned(true)];
    RunCons(s3, es[1..][1..][1..]);
    assert es[1..][1..][1..][1..] == [];
  }

  /** An image is written only by a tick while the stream is active with an
      encoder held; any other tick of a running timer stops the stream. */
  lemma WriteIff(s: Engine, e: Event)
    ensures WriteImage in Step(s, e).1 <==>
      e.Tick? && Ticking(s) && s.status == Active && s.encoder && !e.writeThrows
    ensures e.Tick? && Ticking(s) && WriteImage !in Step(s, e).1 ==>
      Step(s, e).0.status == Inactive && !Step(s, e).0.interval
  {
  }

  /** Every stop publishes, even one that finds nothing to stop; a second
      stop touches no process. */
  lemma StopTwice(s: Engine)
    ensures Publish in OnStop(OnStop(s).0).1
    ensures OnStop(OnStop(s).0) == (OnStop(s).0, [ClearInterval, Publish])
  {
  }

  /** The RTSP handle is released exactly when its input is ended; a start
      that overwrites a held handle neither ends nor kills that stage. */
  lemma RtspReleaseIff(s: Engine, e: Event)
    ensures (s.rtsp && !Step(s, e).0.rtsp) <==> EndInput(Rtsp) in Step(s, e).1
    ensures Step(s, e).0.leakedRtsp > s.leakedRtsp ==>
      && s.rtsp && Step(s, e).0.rtsp
      && EndInput(Rtsp) !in Step(s, e).1 && Kill(Rtsp) !in Step(s, e).1
  {
  }

  /** No step kills the encoder stage or drops its handle. */
  lemma EncoderNeverKilled(s: Engine, e: Event)
    ensures Kill(Encoder) !in Step(s, e).1
    ensures s.encoder ==> Step(s, e).0.encoder
  {
  }

  lemma {:induction false} RunNeverKillsEncoder(s: Engine, events: seq<Event>)
    ensures Kill(Encoder) !in Run(s, events).1
    ensures s.encoder ==> Run(s, events).0.encoder
    decreases |events|
  {
    if |events| > 0 {
      EncoderNeverKilled(s, events[0]);
      RunNeverKillsEncoder(Step(s, events[0]).0, events[1..]);
    }
  }

  /** A second `startLivesnaps` while one is marked active does nothing. */
  lemma LivesnapsReentryIgnored(s: Engine, creds: string, id: string)
    requires s.livesnaps.active
    ensures Step(s, StartLivesnaps(creds, id)) == (s, [])
  {
  }

  /** The active mark is cleared by the livesnaps stage's close and nothing
      else, and the close clears it exactly when both the encoder's and the
      RTSP stage's handles are held. */
  lemma LivesnapsActiveClearedOnlyOnClose(s: Engine, e: Event)
    requires s.livesnaps.active
    ensures !Step(s, e).0.livesnaps.active ==> e == LivesnapsClosed
    ensures e == LivesnapsClosed ==> (!Step(s, e).0.livesnaps.active <==> s.encoder && s.rtsp)
  {
  }

  /** A livesnaps stage that closes after `stop` has dropped the RTSP handle
      leaves the mark set, so every later `startLivesnaps` is ignored. */
  lemma CloseAfterStopKeepsMark(s: Engine, creds: string, id: string)
    requires s.livesnaps.active
    ensures Run(s, [Stop, LivesnapsClosed]).0.livesnaps.active
    ensures Step(Run(s, [Stop, LivesnapsClosed]).0, StartLivesnaps(creds, id))
         == (Run(s, [Stop, LivesnapsClosed]).0, [])
  {
    var es := [Stop, LivesnapsClosed];
    var s1 := OnStop(s).0;
    RunCons(s, es);
    assert es[1..] == [LivesnapsClosed];
    RunCons(s1, es[1..]);
    assert es[1..][1..] == [];
  }

  /** When the alternate video never arrives in time, the run is abandoned
      with its mark still set, so every later `startLivesnaps` is ignored,
      even after the keepalive stage has closed. */
  lemma AbandonedRunBlocksLivesnaps(s: Engine, creds: string, id: string, appearsAt: Option<nat>, later: string)
    requires !s.livesnaps.active
    requires !(appearsAt.Some? && appearsAt.value <= AltVideoDeadlineMs)
    ensures var r := Run(s, [StartLivesnaps(creds, id), KeepaliveSpawned(appearsAt), KeepaliveClosed]);
      && r.0.livesnaps.active
      && Step(r.0, StartLivesnaps(later, id)) == (r.0, [])
  {
    var s1 := OnStartLivesnaps(s, creds, id).0;
    var s2 := OnKeepaliveSpawned(s1, appearsAt).0;
    var es := [StartLivesnaps(creds, id), KeepaliveSpawned(appearsAt), KeepaliveClosed];
    RunCons(s, es);
    assert es[1..] == [KeepaliveSpawned(appearsAt), KeepaliveClosed];
    RunCons(s1, es[1..]);
    assert es[1..][1..] == [KeepaliveClosed];
    RunCons(s2, es[1..][1..]);
  }

  /** The splice: once the livesnaps stage produces data it replaces the
      encoder at the RTSP stage's input, and its close puts the encoder back
      when both handles are still held; otherwise nothing feeds the RTSP
      stage any more. */
  lemma SpliceAndRevert(s: Engine)
    requires s.feeders == {Encoder}
    ensures Step(s, LivesnapsFirstData).0.feeders == {Livesnaps}
    ensures s.encoder && s.rtsp ==>
      Step(Step(s, LivesnapsFirstData).0, LivesnapsClosed).0.feeders == {Encoder}
    ensures !(s.encoder && s.rtsp) ==>
      Step(Step(s, LivesnapsFirstData).0, LivesnapsClosed).0.feeders == {}
  {
  }

  /** Only the encoder and the livesnaps stage ever feed the RTSP stage. */
  predicate FeedersWellFormed(s: Engine)
  {
    s.feeders <= {Encoder, Livesnaps}
  }

  lemma {:induction false} RunKeepsFeeders(s: Engine, events: seq<Event>)
    requires FeedersWellFormed(s)
    ensures FeedersWellFormed(Run(s, events).0)
    decreases |events|
  {
    if |events| > 0 {
      StepKeepsFeeders(s, events[0]);
      RunCons(s, events);
      RunKeepsFeeders(Step(s, events[0]).0, events[1..]);
    }
  }

  lemma StepKeepsFeeders(s: Engine, e: Event)
    requires FeedersWellFormed(s)
    ensures FeedersWellFormed(Step(s, e).0)
  {
  }

  /** A successful start from rest: the two stages are spawned in order and
      the stream turns active when the encoder is up. */
  lemma HappyStart(url: string)
    ensures var r := Run(Init, [Start(url, true, false), RtspSpawned, EncoderSpawned(true)]);
      && r.0.status == Active && r.0.interval && r.0.leaked == 0 && r.0.rtsp && r.0.encoder && r.0.unsettled == 0
      && r.1 == [Spawn(Rtsp, RtspArgs(url)), Spawn(Encoder, EncoderArgs), StartInterval, Publish]
  {
    var es := [Start(url, true, false), RtspSpawned, EncoderSpawned(true)];
    var s1 := Init.(rtsp := true, rtspSpawning := 1, unsettled := 1);
    var s2 := s1.(rtspSpawning := 0, encoder := true, encoderSpawning := 1);
    RunCons(Init, es);
    assert es[1..] == [RtspSpawned, EncoderSpawned(true)];
    RunCons(s1, es[1..]);
    assert es[1..][1..] == [EncoderSpawned(true)];
    RunCons(s2, es[1..][1..]);
  }

  // ---------------------------------------------------------------------
  // The stream turns active only after both stages were spawned

  /** Some action spawns stage `st`. */
  predicate SpawnsStage(acts: seq<Action>, st: Stage)
  {
    exists i :: 0 <= i < |acts| && acts[i].Spawn? && acts[i].stage == st
  }

  /** Every spawn of the encoder comes after a spawn of the RTSP stage. */
  predicate EncoderAfterRtsp(acts: seq<Action>)
  {
    forall j :: 0 <= j < |acts| && acts[j].Spawn? && acts[j].stage == Encoder ==>
      exists i :: 0 <= i < j && acts[i].Spawn? && acts[i].stage == Rtsp
  }

  /** What the engine's handles and pending spawns say about the actions
      taken so far. */
  predicate StagesAccounted(s: Engine, acts: seq<Action>)
  {
    && (s.status == Active ==> s.encoder)
    && (s.encoderSpawning > 0 ==> s.encoder)
    && (s.encoder ==> SpawnsStage(acts, Encoder))
    && (s.rtspSpawning > 0 ==> SpawnsStage(acts, Rtsp))
    && EncoderAfterRtsp(acts)
  }

  /** Appending actions keeps earlier spawns, adds the new ones, and keeps
      the order when every new encoder spawn follows an earlier RTSP spawn. */
  lemma AppendSpawns(acts: seq<Action>, more: seq<Action>)
    requires EncoderAfterRtsp(acts)
    requires (exists a :: a in more && a.Spawn? && a.stage == Encoder) ==> SpawnsStage(acts, Rtsp)
    ensures EncoderAfterRtsp(acts + more)
    ensures forall st :: SpawnsStage(acts, st) ==> SpawnsStage(acts + more, st)
    ensures forall st :: (exists a :: a in more && a.Spawn? && a.stage == st) ==> SpawnsStage(acts + more, st)
  {
    var all := acts + more;
    forall st | SpawnsStage(acts, st)
      ensures SpawnsStage(all, st)
    {
      var i :| 0 <= i < |acts| && acts[i].Spawn? && acts[i].stage == st;
      assert all[i] == acts[i];
    }
    forall st | exists a :: a in more && a.Spawn? && a.stage == st
      ensures SpawnsStage(all, st)
    {
      var a :| a in more && a.Spawn? && a.stage == st;
      var k :| 0 <= k < |more| && more[k] == a;
      assert all[|acts| + k] == a;
    }
    forall j | 0 <= j < |all| && all[j].Spawn? && all[j].stage == Encoder
      ensures exists i :: 0 <= i < j && all[i].Spawn? && all[i].stage == Rtsp
    {
      if j < |acts| {
        assert acts[j] == all[j];
        var i :| 0 <= i < j && acts[i].Spawn? && acts[i].stage == Rtsp;
        assert all[i] == acts[i];
      } else {
        assert more[j - |acts|] == all[j];
        var i :| 0 <= i < |acts| && acts[i].Spawn? && acts[i].stage == Rtsp;
        assert all[i] == acts[i];
      }
    }
  }

  /** How one step moves the handles the stage accounting rests on: the
      encoder handle is only taken when the RTSP stage's spawn event comes,
      and a new pending RTSP spawn comes with its Spawn action. */
  lemma StepHandles(s: Engine, e: Event)
    requires s.status == Active ==> s.encoder
    requires s.encoderSpawning > 0 ==> s.encoder
    ensures Step(s, e).0.status == Active ==> Step(s, e).0.encoder
    ensures Step(s, e).0.encoderSpawning > 0 ==> Step(s, e).0.encoder
    ensures Step(s, e).0.encoder ==> s.encoder || (e == RtspSpawned && s.rtspSpawning > 0)
    ensures Step(s, e).0.rtspSpawning > s.rtspSpawning ==>
      |Step(s, e).1| > 0 && Step(s, e).1[0].Spawn? && Step(s, e).1[0].stage == Rtsp
  {
    match e
    case Start(url, image, throws) =>
    case RtspSpawned =>
    case EncoderSpawned(_) =>
    case Tick(_) =>
    case Stop =>
    case RtspClosed =>
    case StartLivesnaps(_, _) =>
    case KeepaliveSpawned(_) =>
    case _ =>
  }

  lemma StepAccountsStages(s: Engine, acts: seq<Action>, e: Event)
    requires StagesAccounted(s, acts)
    ensures StagesAccounted(Step(s, e).0, acts + Step(s, e).1)
  {
    var (s1, more) := Step(s, e);
    StepHandles(s, e);
    EncoderSpawnIff(s, e);
    AppendSpawns(acts, more);
    if s1.rtspSpawning > s.rtspSpawning {
      assert more[0] in more;
    }
    if e == RtspSpawned && s.rtspSpawning > 0 {
      assert more[0] in more;
    }
  }

  lemma AccountedRegrouped(s: Engine, acts: seq<Action>, a: seq<Action>, b: seq<Action>)
    requires StagesAccounted(s, acts + a + b)
    ensures StagesAccounted(s, acts + (a + b))
  {
    assert acts + a + b == acts + (a + b);
  }

  lemma {:induction false} RunAccountsStages(s: Engine, acts: seq<Action>, events: seq<Event>)
    requires StagesAccounted(s, acts)
    ensures StagesAccounted(Run(s, events).0, acts + Run(s, events).1)
    decreases |events|
  {
    if |events| > 0 {
      var s1 := Step(s, events[0]).0;
      var a1 := Step(s, events[0]).1;
      var rest := Run(s1, events[1..]);
      RunCons(s, events);
      StepAccountsStages(s, acts, events[0]);
      RunAccountsStages(s1, acts + a1, events[1..]);
      AccountedRegrouped(rest.0, acts, a1, rest.1);
    } else {
      assert acts + Run(s, events).1 == acts;
    }
  }

  /** The two stages were spawned in order. */
  predicate RtspThenEncoder(acts: seq<Action>)
  {
    exists i, j :: 0 <= i < j < |acts| && acts[i].Spawn? && acts[i].stage == Rtsp
                                      && acts[j].Spawn? && acts[j].stage == Encoder
  }

  lemma ActiveAccounted(s: Engine, acts: seq<Action>)
    requires StagesAccounted(s, acts) && s.status == Active
    ensures s.encoder && RtspThenEncoder(acts)
  {
    var j :| 0 <= j < |acts| && acts[j].Spawn? && acts[j].stage == Encoder;
    var i :| 0 <= i < j && acts[i].Spawn? && acts[i].stage == Rtsp;
  }

  /** Along every run from rest, an active stream holds its encoder, and an
      RTSP stage was spawned before the encoder was. */
  lemma ActiveNeedsBothStages(events: seq<Event>)
    ensures Run(Init, events).0.status == Active ==>
      Run(Init, events).0.encoder && RtspThenEncoder(Run(Init, events).1)
  {
    var r := Run(Init, events);
    RunAccountsStages(Init, [], events);
    assert [] + r.1 == r.1;
    if r.0.status == Active {
      ActiveAccounted(r.0, r.1);
    }
  }

  // ---------------------------------------------------------------------
  // Image timers that outlive their handle

  /** A second encoder spawn while a timer runs replaces the handle and
      leaves the old timer running; no step ever stops a leaked timer. */
  lemma LeakedTimersOnlyGrow(s: Engine, e: Event)
    ensures Step(s, e).0.leaked >= s.leaked
    ensures e.EncoderSpawned? && s.encoderSpawning > 0 && s.interval ==>
      Step(s, e).0.leaked == s.leaked + 1
  {
  }

  lemma {:induction false} RunKeepsLeakedTimers(s: Engine, events: seq<Event>)
    ensures Run(s, events).0.leaked >= s.leaked
    decreases |events|
  {
    if |events| > 0 {
      LeakedTimersOnlyGrow(s, events[0]);
      RunKeepsLeakedTimers(Step(s, events[0]).0, events[1..]);
    }
  }

  // ---------------------------------------------------------------------
  // Stage processes that outlive their handle

  /** A start while the RTSP handle is held, and an RTSP spawn while the
      encoder handle is held, overwrite the handle and orphan the running
      process; nothing else changes either count. */
  lemma LeakedHandlesOnlyGrow(s: Engine, e: Event)
    ensures Step(s, e).0.leakedRtsp ==
      s.leakedRtsp + (if e.Start? && e.imageAvailable && !e.spawnThrows && s.rtsp then 1 else 0)
    ensures Step(s, e).0.leakedEncoders ==
      s.leakedEncoders + (if e == RtspSpawned && s.rtspSpawning > 0 && s.encoder then 1 else 0)
  {
    match e
    case Start(_, _, _) =>
    case RtspSpawned =>
    case RtspError(_) =>
    case RtspClosed =>
    case EncoderSpawned(_) =>
    case EncoderFirstData =>
    case Tick(_) =>
    case Stop =>
    case StartLivesnaps(_, _) =>
    case KeepaliveSpawned(_) =>
    case LivesnapsSpawned =>
    case LivesnapsFirstData =>
    case LivesnapsClosed =>
    case LivesnapsWindowOver =>
    case KeepaliveClosed =>
  }

  lemma {:induction false} RunKeepsLeakedHandles(s: Engine, events: seq<Event>)
    ensures Run(s, events).0.leakedRtsp >= s.leakedRtsp
    ensures Run(s, events).0.leakedEncoders >= s.leakedEncoders
    decreases |events|
  {
    if |events| > 0 {
      LeakedHandlesOnlyGrow(s, events[0]);
      RunCons(s, events);
      RunKeepsLeakedHandles(Step(s, events[0]).0, events[1..]);
    }
  }

  /** A restart after `stop` orphans the encoder: stop never touches it, and
      the new RTSP stage's spawn overwrites its handle. */
  lemma RestartOrphansEncoder(s: Engine, url: string)
    requires s.encoder
    ensures Run(s, [Stop, Start(url, true, false), RtspSpawned]).0.leakedEncoders == s.leakedEncoders + 1
    ensures Run(s, [Stop, Start(url, true, false), RtspSpawned]).0.leakedRtsp == s.leakedRtsp
  {
    var es := [Stop, Start(url, true, false), RtspSpawned];
    var s1 := OnStop(s).0;
    var s2 := OnStart(s1, url, true, false).0;
    RunCons(s, es);
    assert es[1..] == [Start(url, true, false), RtspSpawned];
    RunCons(s1, es[1..]);
    assert es[1..][1..] == [RtspSpawned];
    RunCons(s2, es[1..][1..]);
    assert es[1..][1..][1..] == [];
  }

  /** A restart while the stream runs leaks the first timer: after `stop`,
      that timer's next tick stops the stream once more and publishes again. */
  lemma RestartLeaksTimer(s: Engine, own: bool)
    requires s.interval && s.encoderSpawning > 0
    ensures var r := Run(s, [EncoderSpawned(own), Stop, Tick(false)]);
      && r.0.leaked == s.leaked + 1 && !r.0.interval && r.0.status == Inactive
      && r.1[|r.1| - 2..] == [ClearInterval, Publish]
  {
    var es := [EncoderSpawned(own), Stop, Tick(false)];
    var (s1, a1) := Step(s, EncoderSpawned(own));
    var (s2, a2) := OnStop(s1);
    assert s1.leaked == s.leaked + 1 && s1.interval;
    assert s2.leaked == s1.leaked && !s2.interval && !s2.rtsp;
    assert OnTick(s2, false) == (s2, [ClearInterval, Publish]);
    RunCons(s, es);
    assert es[1..] == [Stop, Tick(false)];
    RunCons(s1, es[1..]);
    assert es[1..][1..] == [Tick(false)];
    RunCons(s2, es[1..][1..]);
    assert es[1..][1..][1..] == [];
    assert Run(s, es) == (s2, a1 + (a2 + [ClearInterval, Publish]));
  }

  // ---------------------------------------------------------------------
  // Stop and the shutdown race

  /** The signals the RTSP stage receives after `stop`, given the order in
      which its input's 'finish' event and the 2000 ms timer fire: none when
      the stop ended no input, the race's otherwise. */
  function StopSignals(s: Engine, racers: seq<Shutdown.DrainEvent>): seq<Shutdown.Signal>
  {
    if EndInput(Rtsp) in OnStop(s).1 then Shutdown.Drive(Shutdown.Begin, racers).1 else []
  }

  /** A stop that finds the RTSP stage SIGKILLs it exactly when the timer
      fires before 'finish', and signals it as soon as either fires; a stop
      that comes after it (from the close handler or a leftover timer)
      signals nothing. */
  lemma StopDrainsRtsp(s: Engine, racers: seq<Shutdown.DrainEvent>)
    ensures Shutdown.SigKill in StopSignals(s, racers) <==>
      s.rtsp && |racers| > 0 && racers[0] == Shutdown.Timeout
    ensures s.rtsp && |racers| > 0 ==> |StopSignals(s, racers)| > 0
    ensures StopSignals(OnStop(s).0, racers) == []
  {
    Shutdown.RaceOutcome(racers);
  }
}

=== FILE: text.dfy ===
/** The JavaScript string operations the engines rely on, restricted to what they are used for. */
module Text {
  import opened Common

  /** `pat` occurs in `s` starting at index `i`. */
  ghost predicate OccursAt(s: string, pat: string, i: int)
  {
    0 <= i <= |s| - |pat| && s[i..i + |pat|] == pat
  }

  /** Substring test. A regular expression made of literal alternatives
      matches a string exactly when one alternative is contained in it. */
  function Contains(s: string, pat: string): bool
    decreases |s|
  {
    if |s| < |pat| then false
    else if s[..|pat|] == pat then true
    else Contains(s[1..], pat)
  }

  /** `Contains` finds an occurrence exactly when there is one. */
  lemma {:induction false} ContainsIsSubstring(s: string, pat: string)
    ensures Contains(s, pat) <==> exists i :: OccursAt(s, pat, i)
    decreases |s|
  {
    if |s| < |pat| {
    } else if s[..|pat|] == pat {
      assert OccursAt(s, pat, 0);
    } else {
      ContainsIsSubstring(s[1..], pat);
      forall i | OccursAt(s, pat, i)
        ensures OccursAt(s[1..], pat, i - 1)
      {
        assert i != 0;
        assert s[1..][i - 1..i - 1 + |pat|] == s[i..i + |pat|];
      }
      forall i | OccursAt(s[1..], pat, i)
        ensures OccursAt(s, pat, i + 1)
      {
        assert s[1..][i..i + |pat|] == s[i + 1..i + 1 + |pat|];
      }
    }
  }

  /** Position of the first occurrence of `c` in `s`. */
  function IndexOf(s: string, c: char): (i: nat)
    requires c in s
    ensures i < |s| && s[i] == c && c !in s[..i]
  {
    if s[0] == c then 0
    else
      var j := IndexOf(s[1..], c);
      assert s[..j + 1] == [s[0]] + s[1..][..j];
      j + 1
  }

  /** The first position holding `c` is the one `IndexOf` finds. */
  lemma IndexOfIsFirst(s: string, c: char, k: nat)
    requires k < |s| && s[k] == c
    requires forall j :: 0 <= j < k ==> s[j] != c
    ensures IndexOf(s, c) == k
  {
    var i := IndexOf(s, c);
    forall j | 0 <= j < i
      ensures s[j] != c
    {
      assert s[..i][j] == s[j];
    }
  }

  /** `s.split(sep)` for a one-character separator: the pieces between the
      separators, in order. Like JavaScript it never returns an empty list. */
  function Split(s: string, sep: char): (parts: seq<string>)
    ensures |parts| >= 1
    ensures forall k :: 0 <= k < |parts| ==> sep !in parts[k]
    decreases |s|
  {
    if sep !in s then [s]
    else
      var i := IndexOf(s, sep);
      [s[..i]] + Split(s[i + 1..], sep)
  }

  /** `parts.join(sep)`. */
  function Join(parts: seq<string>, sep: char): string
  {
    if |parts| == 0 then ""
    else if |parts| == 1 then parts[0]
    else parts[0] + [sep] + Join(parts[1..], sep)
  }

  /** Splitting loses nothing: joining the pieces gives the string back. */
  lemma {:induction false} JoinSplit(s: string, sep: char)
    ensures Join(Split(s, sep), sep) == s
    decreases |s|
  {
    if sep in s {
      var i := IndexOf(s, sep);
      var rest := Split(s[i + 1..], sep);
      JoinSplit(s[i + 1..], sep);
      assert Split(s, sep) == [s[..i]] + rest;
      assert (([s[..i]] + rest)[1..]) == rest;
      assert s == s[..i] + [sep] + s[i + 1..];
    }
  }

  /** Splitting is the inverse of joining separator-free pieces. */
  lemma {:induction false} SplitJoin(parts: seq<string>, sep: char)
    requires |parts| >= 1
    requires forall k :: 0 <= k < |parts| ==> sep !in parts[k]
    ensures Split(Join(parts, sep), sep) == parts
    decreases |parts|
  {
    if |parts| > 1 {
      var tail := Join(parts[1..], sep);
      var s := parts[0] + [sep] + tail;
      assert s[|parts[0]|] == sep;
      assert s[..|parts[0]|] == parts[0];
      IndexOfIsFirst(s, sep, |parts[0]|);
      assert s[|parts[0]| + 1..] == tail;
      SplitJoin(parts[1..], sep);
      assert [parts[0]] + parts[1..] == parts;
    }
  }

  /** JavaScript's toLowerCase on one character, for the ASCII letters. */
  function LowerChar(c: char): char
  {
    if 'A' <= c <= 'Z' then (c as int + 32) as char else c
  }

  /** JavaScript's toLowerCase, for the ASCII letters: each upper-case
      letter becomes its lower-case partner, 32 code points on, and every
      other character is kept. ToLowerSpec states what follows from this. */
  function ToLower(s: string): (r: string)
    ensures |r| == |s|
    ensures forall i :: 0 <= i < |s| && 'A' <= s[i] <= 'Z' ==> r[i] == (s[i] as int + 32) as char
    ensures forall i :: 0 <= i < |s| && !('A' <= s[i] <= 'Z') ==> r[i] == s[i]
  {
    seq(|s|, i requires 0 <= i < |s| => LowerChar(s[i]))
  }

  /** Lower-casing leaves no upper-case ASCII letter behind and changes nothing else. */
  lemma ToLowerSpec(s: string)
    ensures forall i :: 0 <= i < |s| ==> !('A' <= ToLower(s)[i] <= 'Z')
    ensures forall i :: 0 <= i < |s| && !('A' <= s[i] <= 'Z') ==> ToLower(s)[i] == s[i]
    ensures ToLower(ToLower(s)) == ToLower(s)
  {
  }

  /** `s.replace(from, to)` with a one-character string pattern: only the
      first occurrence is replaced. */
  function ReplaceFirst(s: string, from: char, to: char): (r: string)
    ensures from !in s ==> r == s
    ensures from in s ==> r == s[..IndexOf(s, from)] + [to] + s[IndexOf(s, from) + 1..]
  {
    if |s| == 0 then s
    else if s[0] == from then [to] + s[1..]
    else
      var tail := ReplaceFirst(s[1..], from, to);
      if from in s[1..] then
        var j := IndexOf(s[1..], from);
        assert IndexOf(s, from) == j + 1;
        assert s[..j + 1] == [s[0]] + s[1..][..j];
        assert s[j + 2..] == s[1..][j + 1..];
        [s[0]] + tail
      else
        assert from !in s by {
          forall k | 0 <= k < |s|
            ensures s[k] != from
          {
            if k > 0 { assert s[k] == s[1..][k - 1]; }
          }
        }
        [s[0]] + tail
  }

  predicate IsDigit(c: char)
  {
    '0' <= c <= '9'
  }

  predicate AllDigits(s: string)
  {
    forall i :: 0 <= i < |s| ==> IsDigit(s[i])
  }

  /** The number a string of decimal digits denotes. */
  function DigitsValue(s: string): nat
    requires AllDigits(s)
  {
    if |s| == 0 then 0
    else DigitsValue(s[..|s| - 1]) * 10 + (s[|s| - 1] as int - '0' as int)
  }

  /** The number a token denotes under JavaScript's loose equality with a
      number, for the plain decimal tokens the model covers; None otherwise. */
  function DecimalValue(s: string): Option<nat>
  {
    if |s| > 0 && AllDigits(s) then Some(DigitsValue(s)) else None
  }

  function DigitChar(d: nat): char
    requires d < 10
  {
    ('0' as int + d) as char
  }

  /** JavaScript's String(n) for a natural number. */
  function NatToString(n: nat): (s: string)
    ensures |s| > 0 && AllDigits(s)
    ensures n >= 10 ==> |s| >= 2
  {
    if n < 10 then [DigitChar(n)] else NatToString(n / 10) + [DigitChar(n % 10)]
  }

  /** Printing a number and reading it back gives the number. */
  lemma {:induction false} DecimalRoundTrip(n: nat)
    ensures DecimalValue(NatToString(n)) == Some(n)
  {
    var s := NatToString(n);
    if n < 10 {
      assert s[..0] == [];
      assert s[0] as int - '0' as int == n;
      assert DigitsValue(s) == DigitsValue(s[..0]) * 10 + (s[0] as int - '0' as int);
    } else {
      DecimalRoundTrip(n / 10);
      assert s[..|s| - 1] == NatToString(n / 10);
      assert s[|s| - 1] as int - '0' as int == n % 10;
    }
  }
}
